=== FILE: README.md ===
# Radiography positioning trainer: menu, scenario, input, alignment and audio logic in Dafny

This project models the decision logic of a Unity virtual-reality trainer for
positioning an X-ray emitter and plate around a horse's limb. Engine values
(distances, angles, button readings, whether an audio source is playing) are
inputs, and each behaviour script becomes a module of pure step functions:

- `SelectionEnums`: the five selection enums (training mode, task type, x-ray
  type, body part, leg) with their C# ordinals.
- `ScenarioDataLoader`: the persistent five-field `ScenarioData` record, its
  save and reset, the `Instance` singleton bookkeeping and the main-menu reset
  on `Awake`. The repository has two copies of this class,
  `Assets/Scripts/ScenarioDataLoader.cs` and
  `Assets/eqvr_Scripts/ScenarioDataLoader.cs`. They differ in two places:
  the second adds `ResetScenario`/`ReturnToMainMenu` at lines 37-48, which
  moves `SaveScenarioData`/`ResetScenarioData` from lines 37-55 to 51-69,
  and it leaves the `scenarioData` field to its default value instead of
  initialising it with `new ScenarioData()` at line 5 (both give the
  all-`None` record). `Start` and `Awake` are at lines 7-34 in both. The
  module models both copies; rows below cite the second copy for the save,
  reset and scene-load members and the first for the rest.
- `MainMenu`: the menu handlers of `NewMainMenuFunctions`: mode buttons,
  dropdown handlers mapping an index to an enum value, the completeness gate
  `ContinueCheck`, the weaker validator `CheckScenarioData`, the confirmation
  button (which saves before it validates) and the assessment set-up. The
  reset clears four of the five fields and keeps the leg selection; the model
  keeps this behaviour, and `StaleLegSurvivesReset` shows what it leads to.
- `BodyPartSetup`: how the training scene turns the saved body part and leg
  into child indices of the horse model.
- `ActivityManager`: the alignment check: the nearest marker within the
  detection radius, the best allowed angle (first minimum wins), the plate
  threshold, then the emitter's distance window and two angle thresholds.
- `InputScript`: rising-edge detection for the A and X buttons.
- `Danger`: the danger-zone trigger with its sticky `hasEntered` flag and its
  side-dependent horse clips.
- `AudioLibrary` and `AudioManager`: clip lookups by index and by name, the
  per-type library and source maps, the request queue (a FIFO container whose dispatch sends a request with a busy source back to the tail, so requests are not served in arrival order), and the
  `PlayAudio` decision (reject, queue or play). `PlayAudio` drains the queue by
  calling `PlayNextQueuedAudio`, which calls `PlayAudio` again. The model keeps
  this mutual recursion and proves it ends: every further start needs a
  source that is not playing, and an override call only dispatches requests
  without override.

`Wrappers` holds the `Option` type used for null references.

## Model

| member | source | states |
|---|---|---|
| SelectionEnums.OrdinalsIdentifyMembers | Assets/Scripts/NewMainMenuFunctions.cs:372-417 | each enum's ordinals are distinct, and `None` is the only member with ordinal 0 |
| ScenarioDataLoader.SaveScenarioData | Assets/eqvr_Scripts/ScenarioDataLoader.cs:51-59 | each of the five arguments lands in its own field of the record |
| ScenarioDataLoader.ResetScenarioData | Assets/eqvr_Scripts/ScenarioDataLoader.cs:61-69 | all five fields become `None` |
| ScenarioDataLoader.SaveOverwritesEverything | Assets/eqvr_Scripts/ScenarioDataLoader.cs:54-58 | a save does not depend on the prior record: saving after a reset equals saving, saving twice equals saving once, and the result is exactly the five arguments |
| ScenarioDataLoader.SaveAndResetFixedPoints | Assets/eqvr_Scripts/ScenarioDataLoader.cs:51-69 | saving a record's own fields back changes nothing; every reset yields the cleared record, and reset is idempotent |
| ScenarioDataLoader.Start | Assets/Scripts/ScenarioDataLoader.cs:7-18 | `Instance` is taken only when it is null; a later loader leaves it unchanged and destroys itself |
| ScenarioDataLoader.FirstStarterWins | Assets/Scripts/ScenarioDataLoader.cs:7-18 | over any sequence of loader starts, the first starter stays `Instance`, and an existing instance is never replaced |
| ScenarioDataLoader.Awake | Assets/Scripts/ScenarioDataLoader.cs:26-34 | the record is cleared if the active scene is "MainMenu" and left unchanged otherwise |
| ScenarioDataLoader.ResetScenario | Assets/eqvr_Scripts/ScenarioDataLoader.cs:37-41 | requests scene 1 and leaves the scenario record unchanged |
| ScenarioDataLoader.ReturnToMainMenu | Assets/eqvr_Scripts/ScenarioDataLoader.cs:44-48 | requests scene 0 and leaves the scenario record unchanged |
| MainMenu.TaskForIndex | Assets/Scripts/NewMainMenuFunctions.cs:85-99 | index i in 0..2 gives the task with ordinal i+1; every other integer gives `None` |
| MainMenu.XrayForIndex | Assets/Scripts/NewMainMenuFunctions.cs:131-148 | index i in 0..3 gives the x-ray type with ordinal i+1; every other integer gives `None` |
| MainMenu.BodyPartForIndex | Assets/Scripts/NewMainMenuFunctions.cs:158-181 | index i in 0..5 gives the body part with ordinal i+1, any other integer gives `None`, and `Default` never results |
| MainMenu.LegForIndex | Assets/Scripts/NewMainMenuFunctions.cs:192-209 | index i in 0..3 gives the leg with ordinal i+1; every other integer gives `None` |
| MainMenu.DropdownIndicesAreOrdinals | Assets/Scripts/NewMainMenuFunctions.cs:83-215 | every selectable member is produced by the index one below its ordinal; body-part indices 0..5 give distinct parts; `Default` is unreachable |
| MainMenu.OnGuidedModeButtonPressed | Assets/Scripts/NewMainMenuFunctions.cs:66-72 | sets the mode to guided and leaves the other four fields unchanged |
| MainMenu.OnAssessmentButtonPressed | Assets/Scripts/NewMainMenuFunctions.cs:73-79 | sets the mode to assessment and leaves the other four fields unchanged |
| MainMenu.OnTaskSelection | Assets/Scripts/NewMainMenuFunctions.cs:83-107 | the task's ordinal is index+1 for an in-range index and 0 otherwise; only the task field changes |
| MainMenu.OnXrayTypeSelected | Assets/Scripts/NewMainMenuFunctions.cs:129-155 | the x-ray ordinal is index+1 for an in-range index and 0 otherwise; only that field changes; the confirmation screen shows iff the completeness gate holds afterwards |
| MainMenu.OnBodyPartSelected | Assets/Scripts/NewMainMenuFunctions.cs:156-189 | the body-part ordinal is index+1 for an in-range index and 0 otherwise; only that field changes; the confirmation screen shows iff the gate holds afterwards |
| MainMenu.OnLegSelection | Assets/Scripts/NewMainMenuFunctions.cs:190-215 | the leg ordinal is index+1 for an in-range index and 0 otherwise; only that field changes; the confirmation screen shows iff the gate holds afterwards |
| MainMenu.ContinueCheck | Assets/Scripts/NewMainMenuFunctions.cs:217-228 | the confirmation gate holds exactly when all five fields have a non-zero ordinal, and it implies the validator's acceptance |
| MainMenu.CheckScenarioData | Assets/Scripts/NewMainMenuFunctions.cs:261-288 | the validator accepts exactly when mode, x-ray type and body part have non-zero ordinals |
| MainMenu.ContinueCheckIffAllChosen | Assets/Scripts/NewMainMenuFunctions.cs:217-228 | the confirmation gate holds exactly when none of the five fields has ordinal 0 |
| MainMenu.CheckScenarioDataIgnoresTaskAndLeg | Assets/Scripts/NewMainMenuFunctions.cs:261-288 | the validator accepts exactly when mode, x-ray type and body part are non-`None`; changing the task or the leg never changes its answer |
| MainMenu.ValidatorWeakerThanContinueCheck | Assets/Scripts/NewMainMenuFunctions.cs:217-288 | the gate implies the validator, and a record with no task and no leg passes the validator but not the gate |
| MainMenu.ResetSelections | Assets/Scripts/NewMainMenuFunctions.cs:290-298 | mode, task, x-ray type and body part become `None`; the leg selection is kept |
| MainMenu.OnConfirmationButtonPressed | Assets/Scripts/NewMainMenuFunctions.cs:247-259 | with a loader instance, the current five fields are stored whether valid or not; the menu is reset only when validation fails; with no instance nothing changes |
| MainMenu.CompleteSelectionsSurviveConfirmation | Assets/Scripts/NewMainMenuFunctions.cs:247-259 | a selection that passed the gate is stored unchanged and the menu is not reset |
| MainMenu.InvalidRecordIsStillSaved | Assets/Scripts/NewMainMenuFunctions.cs:249-257 | a selection the validator rejects is stored anyway, and the menu's mode is cleared |
| MainMenu.StaleLegSurvivesReset | Assets/Scripts/NewMainMenuFunctions.cs:290-298 | after a reset, re-picking mode, task, x-ray type and body part shows the confirmation screen with the old leg, without a new leg choice |
| MainMenu.GuidedFlowReachesConfirmation | Assets/Scripts/NewMainMenuFunctions.cs:66-215 | from the initial state, the guided flow shows the confirmation screen iff all four dropdown indices were in range |
| MainMenu.RandomiseTypeAndPart | Assets/Scripts/NewMainMenuFunctions.cs:360-368 | picks an x-ray type other than `None` and a body part other than `None` and `Default`, and changes no other field |
| MainMenu.RandomisationListsCoverChoices | Assets/Scripts/NewMainMenuFunctions.cs:37-49 | the x-ray list holds exactly the non-`None` types and the body-part list exactly the parts other than `None` and `Default` |
| MainMenu.AssessmentModeSetup | Assets/Scripts/NewMainMenuFunctions.cs:327-359 | always ends in assessment mode with the confirmation screen shown; ids 0..2 set the task with ordinal id+1 and draw x-ray type and body part from the lists; other ids keep task, x-ray type and body part; the leg is never touched |
| MainMenu.AssessmentSetupIsValid | Assets/Scripts/NewMainMenuFunctions.cs:327-368 | a known task id always leaves a record the validator accepts |
| BodyPartSetup.BodyPartChild | Assets/Scripts/BodyPartSetup.cs:22-46 | a child index exists exactly for the six real body parts, it is below 6, and it is the ordinal minus one (Fetlock 0 up to Head 5) |
| BodyPartSetup.LegChild | Assets/Scripts/BodyPartSetup.cs:59-79 | a leg index exists exactly for the four legs, it is below 4, and it is the ordinal minus one (FrontLeft 0 up to HindRight 3) |
| BodyPartSetup.ActivateBodyPart | Assets/Scripts/BodyPartSetup.cs:52-57 | activates the given body-part child and, under it, the leg child of the selection |
| BodyPartSetup.Start | Assets/Scripts/BodyPartSetup.cs:9-47 | activates at most one body part and at most one leg, a leg only under an activated body part, both in range; `None`, `Default` or a missing instance activate nothing |
| BodyPartSetup.ChildMappingsInjective | Assets/Scripts/BodyPartSetup.cs:22-41 | distinct body parts get distinct children and distinct legs get distinct grandchildren |
| BodyPartSetup.DropdownIndexIsChildIndex | Assets/Scripts/BodyPartSetup.cs:20-41 | the menu's dropdown index for a body part or leg is the child index the scene activates |
| BodyPartSetup.ConfirmedSelectionActivatesScene | Assets/Scripts/BodyPartSetup.cs:9-87 | a confirmed selection that passed the menu gate activates exactly its body part and, under it, its leg |
| BodyPartSetup.DefaultPassesGatesButActivatesNothing | Assets/Scripts/BodyPartSetup.cs:43-45 | a record with `BodyPart.Default` passes both menu checks yet activates nothing |
| BodyPartSetup.ValidRecordMayActivateNoLeg | Assets/Scripts/BodyPartSetup.cs:22-79 | every record the validator accepts with leg `None` and a body part other than `Default` activates its body part's child and no leg |
| InputScript.StepChannel | Assets/eqvr_JointMarkers/InputScript.cs:41-62 | an event fires iff the read succeeds, the button is down and the previous state (reset to false for an invalid device) was false; the previous state becomes the reading on success and is otherwise kept |
| InputScript.Update | Assets/eqvr_JointMarkers/InputScript.cs:38-73 | the A and X events and states follow the per-channel rule, each from its own channel's input |
| InputScript.ChannelsIndependent | Assets/eqvr_JointMarkers/InputScript.cs:54-72 | one channel's input never affects the other channel's event or state |
| InputScript.FireCountSplits | Assets/eqvr_JointMarkers/InputScript.cs:54-62 | events over two consecutive runs of frames add up, the second run starting from the state the first left |
| InputScript.HoldFiresOnce | Assets/eqvr_JointMarkers/InputScript.cs:57-61 | holding the button over consecutive successful frames fires once if it started released and never if it started pressed |
| InputScript.ReleaseNeverFires | Assets/eqvr_JointMarkers/InputScript.cs:57-61 | frames with the button up never fire |
| InputScript.OneEventPerPress | Assets/eqvr_JointMarkers/InputScript.cs:7 | any sequence of presses (held, then released) fires exactly one event per press |
| Danger.Start | Assets/eqvr_Scripts/Danger.cs:21-35 | a zone starts with its side, nothing entered and the mesh hidden |
| Danger.OnTriggerEnter | Assets/eqvr_Scripts/Danger.cs:37-69 | any entry sets `hasEntered`; a player entry shows the mesh, plays the zone clip twice and requests horse clip 3 or 5 (first entry, front or back) or 4 or 6 (later entries) with override; a non-player entry changes nothing else |
| Danger.OnTriggerExit | Assets/eqvr_Scripts/Danger.cs:78-86 | a player exit hides the mesh and stops the zone's source; any other exit changes nothing |
| Danger.EnteredIffAnyEntry | Assets/eqvr_Scripts/Danger.cs:19-69 | after any event history, `hasEntered` holds iff it held before or some event was an entry; nothing resets it and the side never changes |
| Danger.FirstClipIffNoEarlierEntry | Assets/eqvr_Scripts/Danger.cs:47-66 | a player entry plays the first-entry clip iff no entry of any tag happened before, so a non-player entry first makes the player's first visit sound like a repeat |
| Danger.EnterWithAudio | Assets/eqvr_Scripts/Danger.cs:37-69 | with a manager instance the zone outcome is that of `OnTriggerEnter` and the manager receives the horse cue with override; with none, a player entry shows the mesh and plays both one-shots but sends no cue and leaves `hasEntered` unchanged; a non-player entry never touches the audio manager |
| Danger.MissingManagerKeepsFirstEntry | Assets/eqvr_Scripts/Danger.cs:47-68 | without a manager instance, any number of player entries leave a fresh zone un-entered, so each later entry still asks for the first-entry clip |
| Danger.DangerCueInterruptsHorse | Assets/eqvr_Scripts/Danger.cs:47-66 | the zone's horse cue is never queued, and when the clip and source exist the horse source ends up playing that clip |
| AudioLibrary.GetAudioClipCount | Assets/Aaron_25/Scripts/AudioLibrary.cs:97-100 | the list's length, or 0 for a null list |
| AudioLibrary.GetAudioClipByID | Assets/Aaron_25/Scripts/AudioLibrary.cs:36-51 | null iff the list is null, the id is outside [0, count) or the entry is null; otherwise the entry at the id |
| AudioLibrary.FirstMatchFrom | Assets/Aaron_25/Scripts/AudioLibrary.cs:86-94 | the least index from i on whose non-null clip name matches ignoring case, or -1 iff there is none |
| AudioLibrary.GetAudioClipID | Assets/Aaron_25/Scripts/AudioLibrary.cs:79-95 | -1 for a null or empty name or a null list; otherwise the least matching index, or -1 iff nothing matches; always in [-1, count) |
| AudioLibrary.FirstMatchingClip | Assets/Aaron_25/Scripts/AudioLibrary.cs:67-73 | a clip whose name matches ignoring case, and nothing iff no entry from i on matches |
| AudioLibrary.GetAudioClipByName | Assets/Aaron_25/Scripts/AudioLibrary.cs:53-77 | null for an empty name or a null list; otherwise a matching clip, found iff some non-null entry matches |
| AudioLibrary.FirstMatchesAgree | Assets/Aaron_25/Scripts/AudioLibrary.cs:67-94 | the two scans agree: the name scan returns the entry at the index the index scan finds, and both fail together |
| AudioLibrary.IdAndNameLookupsAgree | Assets/Aaron_25/Scripts/AudioLibrary.cs:36-95 | if the index lookup finds i then the index lookup of i is non-null and equals the name lookup; the name lookup fails iff the index lookup answers -1 |
| AudioLibrary.ClipNames | Assets/Aaron_25/Scripts/AudioLibrary.cs:107-110 | one name per entry in order, "NULL" for a null entry |
| AudioLibrary.GetAllClipNames | Assets/Aaron_25/Scripts/AudioLibrary.cs:102-113 | as many names as the clip count, in list order, each the clip's name or "NULL" where the index lookup finds nothing |
| AudioLibrary.ListedNameMatchesLookup | Assets/Aaron_25/Scripts/AudioLibrary.cs:79-113 | the index found for a name is listed under a name equal to it ignoring case |
| AudioManager.InitializeAudioSources | Assets/Aaron_25/AudioManager.cs:47-74 | a type has a source afterwards iff it had one or its field is assigned; assigned fields win; nothing else changes |
| AudioManager.InitializedSourcesMatchFields | Assets/Aaron_25/AudioManager.cs:47-74 | starting from a fresh manager, a type is in the source map iff its source field is non-null |
| AudioManager.RegisterAudioLibrary | Assets/Aaron_25/AudioManager.cs:78-93 | null is ignored; otherwise the type maps to the library, replacing any earlier entry, and other types are untouched |
| AudioManager.RegisterWithAudioManager | Assets/Aaron_25/Scripts/AudioLibrary.cs:19-34 | a library registers under its own type exactly when a manager instance exists |
| AudioManager.RegistrationOverwrites | Assets/Aaron_25/AudioManager.cs:86-91 | registering twice under one type keeps the last library; registrations under different types commute |
| AudioManager.QueueAudio | Assets/Aaron_25/AudioManager.cs:178-182 | the request is appended at the tail and the rest of the queue and state is unchanged |
| AudioManager.StartingLowersIdle | Assets/Aaron_25/AudioManager.cs:138-150 | starting a source never adds an idle source and removes one if it was idle, which bounds the queue drain |
| AudioManager.PlayAudio | Assets/Aaron_25/AudioManager.cs:96-153 | rejects with no change for a missing library, missing source or invalid clip; queues the request at the tail iff the source is playing and override is off; otherwise the source ends with the clip at master volume and playing, the queue does not grow, and no other playing source changes |
| AudioManager.PlayNextQueuedAudio | Assets/Aaron_25/AudioManager.cs:192-204 | no change on an empty queue; otherwise the head is taken off and replayed without override: an unplayable head is dropped and nothing else changes, a head whose source is busy goes back to the tail, and a playable head on an idle source ends up playing its clip; the queue never grows and no playing source changes |
| AudioManager.HeadDispatchedFirst | Assets/Aaron_25/AudioManager.cs:178-204 | with a request appended to a non-empty queue, the next dispatch deals with the old head first; an unplayable head is dropped with the new request last, a head whose source is busy goes to the tail behind the new request, which is then served before it, and a head on an idle source ends up playing its clip |
| AudioManager.BusyRequestRequeuedBehindNewer | Assets/Aaron_25/AudioManager.cs:146-150 | when the head starts on its idle source and the next request needs that same source, the drain sends that request to the tail behind a request queued after it, so service is not in arrival order |
| AudioManager.PlayOutcomeMatchesSourceState | Assets/Aaron_25/AudioManager.cs:123-141 | a queued request waits behind a playing source and grows the queue by one; a played one leaves its source playing the clip it asked for |
| AudioManager.PlayAudioByName | Assets/Aaron_25/AudioManager.cs:155-176 | no change for a missing library or an unknown name; otherwise the same as `PlayAudio` with the clip's index |
| AudioManager.StopAudio | Assets/Aaron_25/AudioManager.cs:206-213 | the type's source is no longer playing but keeps its clip and volume; every other source, the libraries, the queue and the master volume are unchanged |
| AudioManager.StopAllAudio | Assets/Aaron_25/AudioManager.cs:215-225 | no source is playing afterwards and nothing else changes |
| AudioManager.Clamp01 | Assets/Aaron_25/AudioManager.cs:229 | the result lies in [0, 1], equals the input inside it and the nearer bound outside |
| AudioManager.SetMasterVolume | Assets/Aaron_25/AudioManager.cs:227-239 | the master volume becomes the clamped input in [0, 1] and every source's volume equals it, with nothing else changed |
| AudioManager.PlayingKeepsUniformVolume | Assets/Aaron_25/AudioManager.cs:138-139 | once every source is at master volume, playing anything keeps it so |
| AudioManager.IsPlaying | Assets/Aaron_25/AudioManager.cs:256-261 | playing implies the type has a source |
| AudioManager.GetQueueCount | Assets/Aaron_25/AudioManager.cs:263-266 | the number of queued requests |
| AudioManager.ClearQueue | Assets/Aaron_25/AudioManager.cs:268-272 | afterwards the queue count is 0 and nothing else changes |
| ActivityManager.NearestMarker | Assets/eqvr_JointMarkers/ActivityManager.cs:136-140 | none iff no marker is within the radius (inclusive); otherwise an in-range marker no farther than any in-range marker, with every earlier in-range marker strictly farther |
| ActivityManager.NearestMarkerIsUnique | Assets/eqvr_JointMarkers/ActivityManager.cs:137-140 | any marker meeting that description is the one chosen |
| ActivityManager.BestPlateCandidate | Assets/eqvr_JointMarkers/ActivityManager.cs:162-179 | the best error is at most `float.MaxValue` and every candidate's error; the earliest minimal candidate is kept; no candidate and error `float.MaxValue` iff no error is below `float.MaxValue` (always so for an empty list) |
| ActivityManager.CheckEmitterAlignment | Assets/eqvr_JointMarkers/ActivityManager.cs:247-274 | ok iff min <= distance <= max, normal error <= its threshold and plate error <= its threshold; otherwise the first failing check in that order is reported |
| ActivityManager.PerformAlignmentCheck | Assets/eqvr_JointMarkers/ActivityManager.cs:125-223 | the verdict is a missing reference iff the plate, emitter or marker list is missing, and then nothing changes; otherwise the current marker becomes the nearest and lines are cleared iff it changed; the verdict is no marker in range iff none is within the radius; it is plate not aligned, with the best error, iff a marker is in range and its best plate error exceeds the threshold; the emitter is judged only after the plate passes |
| ActivityManager.FullyAlignedIff | Assets/eqvr_JointMarkers/ActivityManager.cs:153-223 | full alignment iff a marker is in range, its best plate error is within the threshold and the emitter passes all three checks for that marker and angle |
| ActivityManager.NoAllowedAnglesNeverAligns | Assets/eqvr_JointMarkers/ActivityManager.cs:162-181 | when the plate threshold is below `float.MaxValue`, a nearest marker with no allowed angles fails the plate check with error `float.MaxValue` |
| ActivityManager.DefaultsRejectMarkerWithoutAngles | Assets/eqvr_JointMarkers/ActivityManager.cs:19-31 | with the inspector defaults a nearest marker without allowed angles fails the plate check with error `float.MaxValue`, and the emitter distance window is non-empty |
| ActivityManager.RepeatedCheckIsStable | Assets/eqvr_JointMarkers/ActivityManager.cs:142-151 | a second check on the same readings keeps the marker, clears no lines and gives the same verdict |
| ActivityManager.ToggleAllDebug | Assets/eqvr_JointMarkers/ActivityManager.cs:225-234 | the debug flag is negated, every marker's gizmo flag is set to the new value, and nothing else changes |
| ActivityManager.DebugToggleDoesNotChangeVerdict | Assets/eqvr_JointMarkers/ActivityManager.cs:181-216 | the debug flag never changes the verdict or the marker the check settles on |
| ActivityManager.ToggleTwice | Assets/eqvr_JointMarkers/ActivityManager.cs:225-234 | toggling twice restores the flag and leaves every gizmo flag equal to it |

## Left out

- Vector and quaternion geometry (`Vector3.Distance`, `Vector3.Angle`, `Quaternion.AngleAxis`, ray construction): distances and angle errors are real-valued inputs per marker and per allowed angle.
- Floating point: floats are reals, so rounding and NaN comparisons are not modelled; `float.MaxValue` is kept as the starting best error.
- Rendering and UI: panel `SetActive` calls, label texts, `InitalMenuSetup`, `ShowConfirmationScreen`'s texts, the three dropdown-toggle buttons, line renderers, material colours, marker gizmo drawing. Only whether the confirmation screen is shown and whether the debug lines are cleared on a marker change are kept.
- Scene loading (`LoadMainScene`, the `LoadScene` calls): `ResetScenario` and `ReturnToMainMenu` only report the requested scene index.
- Logging.
- `Random.Range` in `RandomiseTypeAndPart`: the two random picks are in-range parameters. The randomisation lists are constants; calling `AssessmentModeSetup` before `Start` has filled them is not modelled.
- Singleton `Destroy` and `DontDestroyOnLoad` mechanics beyond which object is `Instance`; the `AudioManager.Awake` singleton check is not modelled, only its call to `InitializeAudioSources`.
- XR device acquisition in `InputScript` and the event wiring in `ActivityManager.Start`/`OnDestroy` (A button runs the alignment check, X toggles debug); `ActivityManager.Awake`/`Start` caching renderers and collecting markers.
- `WaitForAudioToFinish` and playback ending by itself: `isPlaying` is abstract state that `Play` sets and `Stop` clears. A stop followed by a play is modelled by its net effect.
- `PlayMainMenuHoverSFX`, `PlayPickupSFX`, `PlayPutdownSFX`: calls of `PlayAudio` with fixed arguments. `sfxVolume` and `musicVolume` are never read.
- Two source fields that reference the same `AudioSource` are treated as separate sources, and a source destroyed after initialisation is not modelled.
- AudioLibrary.GetAudioClipID: the case-insensitive comparison folds ASCII letters only, while `OrdinalIgnoreCase` also folds other Unicode letters.
- AudioLibrary.GetAudioClipByName: the same ASCII-only case folding.
- Danger.OnTriggerEnter: assumes the MeshRenderer and AudioSource components and an `AudioManager.Instance` exist. A missing component makes the C# handler throw part-way, which is not modelled; a missing manager instance is modelled by `Danger.EnterWithAudio`. The two `PlayOneShot` calls are kept as a count.
- BodyPartSetup.Start: assumes the horse model has six body-part children with four leg children each; `GetChild` out of range is not modelled, and the x-ray type it reads is unused.
- HorseHuff and VRFootstep (timers and randomness), RaycastLineChecker and XrayDebugs (ray geometry), Marker and MarkerRuntimeVisualiser (gizmos), EmitterRotationConstraint and SimpleinteractableCustomSetup (engine wiring) are not part of this model.

=== FILE: activity_manager.dfy ===
/** The alignment decision of the activity manager
    (Assets/eqvr_JointMarkers/ActivityManager.cs). Geometry is not computed:
    each marker contributes its distance to the plate and to the emitter, and
    each of its allowed angles contributes the two angle errors the source
    would measure against the rotated marker normal. Floats are reals;
    colours and debug lines are left out, except for the moment the lines
    are cleared because the current marker changed. */
module ActivityManager {

  import opened Wrappers

  /** `float.MaxValue`, the starting best error of the plate check. */
  const FloatMaxValue: real := 340282346638528859811704183484516925440.0

  datatype Settings = Settings(
    plateDetectionRadius: real,
    plateAngleThreshold: real,
    emitterMinDistance: real,
    emitterMaxDistance: real,
    emitterAngleThreshold: real,
    emitterPlateAngleThreshold: real)

  /** The inspector defaults. */
  const DefaultSettings := Settings(0.2, 5.0, 0.3, 0.6, 5.0, 5.0)

  /** A scene marker: its allowed angles and its gizmo flag. */
  datatype Marker = Marker(allowedAngles: seq<real>, showAngleGizmos: bool)

  /** The manager's state. `markers` is `None` until `Start` has collected
      them; `currentMarker` is an index into that list. */
  datatype Manager = Manager(
    settings: Settings,
    platePresent: bool,
    emitterPresent: bool,
    markers: Option<seq<Marker>>,
    currentMarker: Option<nat>,
    debugEnabled: bool)

  /** For one allowed angle: the plate-forward error against the candidate
      normal, and the emitter-up error against the negated candidate normal. */
  datatype Candidate = Candidate(plateError: real, emitterNormalError: real)

  /** For one marker: distances from its centre to the plate and the emitter,
      and one candidate per allowed angle. */
  datatype MarkerReading = MarkerReading(plateDistance: real, emitterDistance: real, candidates: seq<Candidate>)

  /** One frame's measurements: a reading per marker, the emitter-up error
      against the negated plate forward, and the emitter-up error against the
      zero vector, used when no candidate beats `float.MaxValue`. */
  datatype Readings = Readings(markers: seq<MarkerReading>, emitterPlateError: real, zeroNormalError: real)

  /** The best candidate so far: its error and its index. */
  datatype Best = Best(error: real, index: Option<nat>)

  /** Why the emitter check failed, in the order the checks run. */
  datatype EmitterCheck = EmitterOk | DistanceOutOfRange | NormalMisaligned | PlateMisaligned

  datatype Verdict =
    | MissingReference
    | NoMarkerInRange
    | PlateNotAligned(bestError: real)
    | EmitterNotAligned(reason: EmitterCheck)
    | FullyAligned

  /** A check's new state, whether the debug lines were cleared because the
      current marker changed, and the overall verdict. */
  datatype CheckResult = CheckResult(manager: Manager, linesCleared: bool, verdict: Verdict)

  /** The readings describe the manager's markers one for one. */
  predicate ReadingsFit(m: Manager, g: Readings)
  {
    m.markers.Some? ==>
      && |g.markers| == |m.markers.value|
      && forall i :: 0 <= i < |g.markers| ==> |g.markers[i].candidates| == |m.markers.value[i].allowedAngles|
  }

  /** Step 1: the markers within the radius (inclusive), ordered by distance
      with a stable sort, and the first one taken. */
  function NearestMarker(rs: seq<MarkerReading>, radius: real): (r: Option<nat>)
    ensures r.None? <==> forall j :: 0 <= j < |rs| ==> rs[j].plateDistance > radius
    ensures r.Some? ==> r.value < |rs| && rs[r.value].plateDistance <= radius
    ensures r.Some? ==> forall j :: 0 <= j < |rs| && rs[j].plateDistance <= radius ==>
                                    rs[r.value].plateDistance <= rs[j].plateDistance
    ensures r.Some? ==> forall j :: 0 <= j < r.value && rs[j].plateDistance <= radius ==>
                                    rs[j].plateDistance > rs[r.value].plateDistance
    decreases |rs|
  {
    if |rs| == 0 then Option.None
    else
      var last := |rs| - 1;
      var earlier := NearestMarker(rs[..last], radius);
      if rs[last].plateDistance > radius then earlier
      else if earlier.None? then Some(last)
      else if rs[last].plateDistance < rs[earlier.value].plateDistance then Some(last)
      else earlier
  }

  /** The nearest marker is unique: any in-range marker no farther than every
      in-range marker and strictly nearer than every earlier in-range marker is it. */
  lemma NearestMarkerIsUnique(rs: seq<MarkerReading>, radius: real, k: nat)
    requires k < |rs| && rs[k].plateDistance <= radius
    requires forall j :: 0 <= j < |rs| && rs[j].plateDistance <= radius ==> rs[k].plateDistance <= rs[j].plateDistance
    requires forall j :: 0 <= j < k && rs[j].plateDistance <= radius ==> rs[j].plateDistance > rs[k].plateDistance
    ensures NearestMarker(rs, radius) == Some(k)
  {
  }

  /** Step 2: the `foreach` over the allowed angles, keeping a candidate only
      when it is strictly better, starting from `float.MaxValue`. */
  function BestPlateCandidate(cs: seq<Candidate>): (r: Best)
    ensures r.error <= FloatMaxValue
    ensures forall j :: 0 <= j < |cs| ==> r.error <= cs[j].plateError
    ensures r.index.None? <==> forall j :: 0 <= j < |cs| ==> cs[j].plateError >= FloatMaxValue
    ensures r.index.None? ==> r.error == FloatMaxValue
    ensures r.index.Some? ==> r.index.value < |cs| && r.error == cs[r.index.value].plateError
    ensures r.index.Some? ==> forall j :: 0 <= j < r.index.value ==> cs[j].plateError > r.error
    decreases |cs|
  {
    if |cs| == 0 then Best(FloatMaxValue, Option.None)
    else
      var last := |cs| - 1;
      var earlier := BestPlateCandidate(cs[..last]);
      if cs[last].plateError < earlier.error then Best(cs[last].plateError, Some(last))
      else earlier
  }

  /** `CheckEmitterAlignment`: distance window, then the marker-normal angle,
      then the plate angle; the first failing check is reported. */
  function CheckEmitterAlignment(s: Settings, dist: real, normErr: real, plateErr: real): (r: EmitterCheck)
    ensures r == EmitterOk <==> s.emitterMinDistance <= dist <= s.emitterMaxDistance
                                && normErr <= s.emitterAngleThreshold && plateErr <= s.emitterPlateAngleThreshold
    ensures r == DistanceOutOfRange <==> dist < s.emitterMinDistance || dist > s.emitterMaxDistance
    ensures r == NormalMisaligned <==> s.emitterMinDistance <= dist <= s.emitterMaxDistance
                                       && normErr > s.emitterAngleThreshold
    ensures r == PlateMisaligned <==> s.emitterMinDistance <= dist <= s.emitterMaxDistance
                                      && normErr <= s.emitterAngleThreshold && plateErr > s.emitterPlateAngleThreshold
  {
    if dist < s.emitterMinDistance || dist > s.emitterMaxDistance then DistanceOutOfRange
    else if normErr > s.emitterAngleThreshold then NormalMisaligned
    else if plateErr > s.emitterPlateAngleThreshold then PlateMisaligned
    else EmitterOk
  }

  /** The emitter-normal error against the best candidate's normal, which is
      the zero vector when no candidate was chosen. */
  function NormalError(g: Readings, rd: MarkerReading, b: Best): real
    requires b.index.Some? ==> b.index.value < |rd.candidates|
  {
    match b.index
    case Some(i) => rd.candidates[i].emitterNormalError
    case None => g.zeroNormalError
  }

  /** The references the check needs are all there. */
  predicate HasReferences(m: Manager)
  {
    m.platePresent && m.emitterPresent && m.markers.Some?
  }

  /** `PerformAlignmentCheck`, run on each A-button press. */
  function PerformAlignmentCheck(m: Manager, g: Readings): (r: CheckResult)
    requires ReadingsFit(m, g)
    ensures !HasReferences(m) ==> r == CheckResult(m, false, MissingReference)
    ensures r.verdict == MissingReference <==> !HasReferences(m)
    ensures HasReferences(m) ==>
              && r.manager == m.(currentMarker := NearestMarker(g.markers, m.settings.plateDetectionRadius))
              && (r.linesCleared <==> r.manager.currentMarker != m.currentMarker)
    ensures r.verdict == NoMarkerInRange <==>
              HasReferences(m) && forall j :: 0 <= j < |g.markers| ==> g.markers[j].plateDistance > m.settings.plateDetectionRadius
    ensures r.verdict.PlateNotAligned? ==>
              && r.manager.currentMarker.Some?
              && r.verdict.bestError == BestPlateCandidate(g.markers[r.manager.currentMarker.value].candidates).error
              && r.verdict.bestError > m.settings.plateAngleThreshold
    ensures r.verdict.EmitterNotAligned? || r.verdict == FullyAligned ==>
              && r.manager.currentMarker.Some?
              && BestPlateCandidate(g.markers[r.manager.currentMarker.value].candidates).error <= m.settings.plateAngleThreshold
    ensures r.verdict.EmitterNotAligned? ==> r.verdict.reason != EmitterOk
    ensures r.verdict.PlateNotAligned? <==>
              && HasReferences(m) && r.manager.currentMarker.Some?
              && !(BestPlateCandidate(g.markers[r.manager.currentMarker.value].candidates).error
                   <= m.settings.plateAngleThreshold)
  {
    if !HasReferences(m) then CheckResult(m, false, MissingReference)
    else
      var nearest := NearestMarker(g.markers, m.settings.plateDetectionRadius);
      var changed := nearest != m.currentMarker;
      var m1 := m.(currentMarker := nearest);
      match nearest
      case None => CheckResult(m1, changed, NoMarkerInRange)
      case Some(k) =>
        var rd := g.markers[k];
        var best := BestPlateCandidate(rd.candidates);
        if !(best.error <= m.settings.plateAngleThreshold) then
          CheckResult(m1, changed, PlateNotAligned(best.error))
        else
          var emitter := CheckEmitterAlignment(m.settings, rd.emitterDistance, NormalError(g, rd, best), g.emitterPlateError);
          if emitter == EmitterOk then CheckResult(m1, changed, FullyAligned)
          else CheckResult(m1, changed, EmitterNotAligned(emitter))
  }

  /** Full alignment is exactly: a marker in range, the plate within its
      threshold of the best allowed angle, and the emitter passing all three
      of its checks for that marker and that angle. */
  lemma FullyAlignedIff(m: Manager, g: Readings)
    requires ReadingsFit(m, g) && HasReferences(m)
    ensures var k := NearestMarker(g.markers, m.settings.plateDetectionRadius);
            PerformAlignmentCheck(m, g).verdict == FullyAligned <==>
              && k.Some?
              && var rd := g.markers[k.value];
                 var best := BestPlateCandidate(rd.candidates);
                 && best.error <= m.settings.plateAngleThreshold
                 && m.settings.emitterMinDistance <= rd.emitterDistance <= m.settings.emitterMaxDistance
                 && NormalError(g, rd, best) <= m.settings.emitterAngleThreshold
                 && g.emitterPlateError <= m.settings.emitterPlateAngleThreshold
  {
  }

  /** With an empty allowed-angle list the plate error is `float.MaxValue`, so
      any ordinary threshold rejects the plate. */
  lemma NoAllowedAnglesNeverAligns(m: Manager, g: Readings)
    requires ReadingsFit(m, g) && HasReferences(m)
    requires m.settings.plateAngleThreshold < FloatMaxValue
    requires var k := NearestMarker(g.markers, m.settings.plateDetectionRadius);
             k.Some? && |g.markers[k.value].candidates| == 0
    ensures PerformAlignmentCheck(m, g).verdict == PlateNotAligned(FloatMaxValue)
  {
  }

  /** Under the inspector defaults a marker with no allowed angles always
      rejects the plate, and the emitter distance window is non-empty. */
  lemma DefaultsRejectMarkerWithoutAngles(m: Manager, g: Readings)
    requires m.settings == DefaultSettings
    requires ReadingsFit(m, g) && HasReferences(m)
    requires var k := NearestMarker(g.markers, m.settings.plateDetectionRadius);
             k.Some? && |g.markers[k.value].candidates| == 0
    ensures PerformAlignmentCheck(m, g).verdict == PlateNotAligned(FloatMaxValue)
    ensures m.settings.emitterMinDistance < m.settings.emitterMaxDistance
  {
    NoAllowedAnglesNeverAligns(m, g);
  }

  /** Repeating a check on the same readings finds the same marker again, so
      the second check never clears the lines and reaches the same verdict. */
  lemma RepeatedCheckIsStable(m: Manager, g: Readings)
    requires ReadingsFit(m, g)
    ensures var r1 := PerformAlignmentCheck(m, g);
            var r2 := PerformAlignmentCheck(r1.manager, g);
            !r2.linesCleared && r2.verdict == r1.verdict && r2.manager == r1.manager
  {
  }

  /** `ToggleAllDebug`: flip the debug flag and copy it to every marker's gizmo flag. */
  function ToggleAllDebug(m: Manager): (r: Manager)
    ensures r.debugEnabled == !m.debugEnabled
    ensures m.markers.None? ==> r.markers.None?
    ensures m.markers.Some? ==>
              && r.markers.Some? && |r.markers.value| == |m.markers.value|
              && forall i :: 0 <= i < |m.markers.value| ==>
                   r.markers.value[i] == m.markers.value[i].(showAngleGizmos := r.debugEnabled)
    ensures r.(debugEnabled := m.debugEnabled, markers := m.markers) == m
  {
    var enabled := !m.debugEnabled;
    var markers :=
      match m.markers
      case None => Option.None
      case Some(ms) => Some(seq(|ms|, i requires 0 <= i < |ms| => ms[i].(showAngleGizmos := enabled)));
    m.(debugEnabled := enabled, markers := markers)
  }

  /** Debug visuals never influence the verdict: toggling them changes neither
      the verdict nor the marker the check settles on. */
  lemma DebugToggleDoesNotChangeVerdict(m: Manager, g: Readings)
    requires ReadingsFit(m, g)
    ensures ReadingsFit(ToggleAllDebug(m), g)
    ensures PerformAlignmentCheck(ToggleAllDebug(m), g).verdict == PerformAlignmentCheck(m, g).verdict
    ensures PerformAlignmentCheck(ToggleAllDebug(m), g).manager.currentMarker
            == PerformAlignmentCheck(m, g).manager.currentMarker
  {
  }

  /** Toggling twice restores the flag and leaves every gizmo flag equal to it. */
  lemma ToggleTwice(m: Manager)
    requires m.markers.Some?
    ensures var r := ToggleAllDebug(ToggleAllDebug(m));
            r.debugEnabled == m.debugEnabled && r.markers.Some?
            && forall i :: 0 <= i < |r.markers.value| ==> r.markers.value[i].showAngleGizmos == m.debugEnabled
  {
  }
}

=== FILE: audio_library.dfy ===
/** A per-type list of audio clips with index and name lookups
    (Assets/Aaron_25/Scripts/AudioLibrary.cs). A null list is
    `audioClips == None`; a null entry is `None` inside the list. */
module AudioLibrary {

  import opened Wrappers

  datatype AudioLibraryType = Player | Horse | Music | MainMenuSFX | MainMenuMusic

  /** An audio asset: its name and an identity distinguishing assets that share a name. */
  datatype Clip = Clip(name: string, asset: nat)

  datatype Library = Library(libraryType: AudioLibraryType, audioClips: Option<seq<Option<Clip>>>)

  /** The placeholder `GetAllClipNames` reports for a null entry. */
  const NullName: string := "NULL"

  /** Upper-case mapping used by the case-insensitive comparison (ASCII letters only). */
  function ToUpper(c: char): char
  {
    if 'a' <= c <= 'z' then (c as int - 32) as char else c
  }

  /** `string.Equals(a, b, StringComparison.OrdinalIgnoreCase)`. */
  predicate EqualsIgnoreCase(a: string, b: string)
  {
    |a| == |b| && forall i :: 0 <= i < |a| ==> ToUpper(a[i]) == ToUpper(b[i])
  }

  /** A non-null entry whose name matches. */
  predicate Matches(c: Option<Clip>, name: string)
  {
    c.Some? && EqualsIgnoreCase(c.value.name, name)
  }

  predicate IsNullOrEmpty(name: Option<string>)
  {
    name.None? || |name.value| == 0
  }

  function GetAudioClipCount(lib: Library): (r: nat)
    ensures lib.audioClips.None? ==> r == 0
    ensures lib.audioClips.Some? ==> r == |lib.audioClips.value|
  {
    match lib.audioClips
    case None => 0
    case Some(cs) => |cs|
  }

  /** `GetAudioClipByID`: null for a null list, an id out of `[0, count)` or a null entry. */
  function GetAudioClipByID(lib: Library, id: int): (r: Option<Clip>)
    ensures r.None? <==> lib.audioClips.None? || id < 0 || id >= |lib.audioClips.value|
                         || lib.audioClips.value[id].None?
    ensures r.Some? ==> 0 <= id < GetAudioClipCount(lib) && r == lib.audioClips.value[id]
  {
    match lib.audioClips
    case None => Option.None
    case Some(cs) =>
      if id < 0 || id >= |cs| then Option.None
      else if cs[id].None? then Option.None
      else cs[id]
  }

  /** The `for` loop of `GetAudioClipID`, from index `i` on. */
  function FirstMatchFrom(cs: seq<Option<Clip>>, name: string, i: nat): (r: int)
    requires i <= |cs|
    ensures r == -1 || i <= r < |cs|
    ensures r >= 0 ==> Matches(cs[r], name) && forall j :: i <= j < r ==> !Matches(cs[j], name)
    ensures r == -1 <==> forall j :: i <= j < |cs| ==> !Matches(cs[j], name)
    decreases |cs| - i
  {
    if i == |cs| then -1
    else if Matches(cs[i], name) then i
    else FirstMatchFrom(cs, name, i + 1)
  }

  /** `GetAudioClipID`: the least index whose entry matches, or -1. */
  function GetAudioClipID(lib: Library, name: Option<string>): (r: int)
    ensures -1 <= r < GetAudioClipCount(lib)
    ensures IsNullOrEmpty(name) || lib.audioClips.None? ==> r == -1
    ensures r >= 0 ==> Matches(lib.audioClips.value[r], name.value)
                       && forall j :: 0 <= j < r ==> !Matches(lib.audioClips.value[j], name.value)
    ensures !IsNullOrEmpty(name) && lib.audioClips.Some? ==>
              (r == -1 <==> forall j :: 0 <= j < |lib.audioClips.value| ==> !Matches(lib.audioClips.value[j], name.value))
  {
    if IsNullOrEmpty(name) || lib.audioClips.None? then -1
    else FirstMatchFrom(lib.audioClips.value, name.value, 0)
  }

  /** The `foreach` loop of `GetAudioClipByName`, from index `i` on. */
  function FirstMatchingClip(cs: seq<Option<Clip>>, name: string, i: nat): (r: Option<Clip>)
    requires i <= |cs|
    ensures r.Some? ==> EqualsIgnoreCase(r.value.name, name)
    ensures r.None? <==> forall j :: i <= j < |cs| ==> !Matches(cs[j], name)
    decreases |cs| - i
  {
    if i == |cs| then Option.None
    else if Matches(cs[i], name) then cs[i]
    else FirstMatchingClip(cs, name, i + 1)
  }

  /** `GetAudioClipByName`: the first non-null entry whose name matches. */
  function GetAudioClipByName(lib: Library, name: Option<string>): (r: Option<Clip>)
    ensures IsNullOrEmpty(name) || lib.audioClips.None? ==> r.None?
    ensures r.Some? ==> EqualsIgnoreCase(r.value.name, name.value)
    ensures r.Some? <==> !IsNullOrEmpty(name) && lib.audioClips.Some?
                         && exists j :: 0 <= j < |lib.audioClips.value| && Matches(lib.audioClips.value[j], name.value)
  {
    if IsNullOrEmpty(name) then Option.None
    else if lib.audioClips.None? then Option.None
    else FirstMatchingClip(lib.audioClips.value, name.value, 0)
  }

  lemma {:induction false} FirstMatchesAgree(cs: seq<Option<Clip>>, name: string, i: nat)
    requires i <= |cs|
    ensures FirstMatchFrom(cs, name, i) == -1 <==> FirstMatchingClip(cs, name, i).None?
    ensures FirstMatchFrom(cs, name, i) >= 0 ==> FirstMatchingClip(cs, name, i) == cs[FirstMatchFrom(cs, name, i)]
    decreases |cs| - i
  {
    if i < |cs| && !Matches(cs[i], name) {
      FirstMatchesAgree(cs, name, i + 1);
    }
  }

  /** The index lookup and the name lookup find the same clip: a found index
      holds a non-null clip equal to the one the name lookup returns, and the
      name lookup fails exactly when the index lookup answers -1. */
  lemma IdAndNameLookupsAgree(lib: Library, name: Option<string>)
    ensures var i := GetAudioClipID(lib, name);
            i >= 0 ==> GetAudioClipByID(lib, i).Some? && GetAudioClipByID(lib, i) == GetAudioClipByName(lib, name)
    ensures GetAudioClipID(lib, name) == -1 <==> GetAudioClipByName(lib, name).None?
  {
    if !IsNullOrEmpty(name) && lib.audioClips.Some? {
      FirstMatchesAgree(lib.audioClips.value, name.value, 0);
    }
  }

  function NameOrNull(c: Option<Clip>): string
  {
    match c
    case Some(clip) => clip.name
    case None => NullName
  }

  /** The `foreach` loop of `GetAllClipNames`. */
  function ClipNames(cs: seq<Option<Clip>>): (r: seq<string>)
    ensures |r| == |cs|
    ensures forall i :: 0 <= i < |cs| ==> r[i] == NameOrNull(cs[i])
  {
    if |cs| == 0 then [] else [NameOrNull(cs[0])] + ClipNames(cs[1..])
  }

  /** `GetAllClipNames`: one name per entry, in list order, "NULL" for null entries. */
  function GetAllClipNames(lib: Library): (r: seq<string>)
    ensures |r| == GetAudioClipCount(lib)
    ensures forall i :: 0 <= i < |r| ==>
              r[i] == if GetAudioClipByID(lib, i).Some? then GetAudioClipByID(lib, i).value.name else NullName
  {
    match lib.audioClips
    case None => []
    case Some(cs) => ClipNames(cs)
  }

  /** The name listing agrees with the name lookup: the entry the lookup finds
      is listed under a name equal to the query up to case. */
  lemma ListedNameMatchesLookup(lib: Library, name: Option<string>)
    ensures var i := GetAudioClipID(lib, name);
            i >= 0 ==> i < |GetAllClipNames(lib)| && EqualsIgnoreCase(GetAllClipNames(lib)[i], name.value)
  {
  }
}

=== FILE: audio_manager.dfy ===
/** The audio manager (Assets/Aaron_25/AudioManager.cs): a library and a
    source per library type, a queue of postponed requests (a FIFO container,
    though a request whose source is busy goes back to the tail, so requests
    are not served in arrival order), and the
    `PlayAudio` decision (reject, queue, or play).
    An `AudioSource` is abstracted to its clip, volume and `isPlaying` flag.
    `isPlaying` is abstract engine state: `Play` sets it, `Stop` clears it,
    and playback ending on its own is outside the model. */
module AudioManager {

  import opened Wrappers
  import opened AudioLibrary

  datatype Source = Source(clip: Option<Clip>, volume: real, isPlaying: bool)

  /** A postponed request (`AudioClipData`). */
  datatype AudioClipData = AudioClipData(audioClipID: int, audioLibraryType: AudioLibraryType)

  datatype Manager = Manager(
    audioLibraries: map<AudioLibraryType, Library>,
    audioSources: map<AudioLibraryType, Source>,
    audioClipQueue: seq<AudioClipData>,
    masterVolume: real)

  /** The five inspector fields holding the sources; `None` is an unassigned field. */
  datatype SourceFields = SourceFields(
    playerAudioSource: Option<Source>,
    horseAudioSource: Option<Source>,
    musicAudioSource: Option<Source>,
    mainMenuSfxAudioSource: Option<Source>,
    mainMenuMusicAudioSource: Option<Source>)

  /** What one `PlayAudio` call decided. */
  datatype PlayOutcome = NoLibrary | NoSource | NoClip | Queued | Played(clip: Clip)
  {
    predicate Rejected() { NoLibrary? || NoSource? || NoClip? }
  }

  datatype PlayResult = PlayResult(manager: Manager, outcome: PlayOutcome)

  /** A manager as constructed: empty collections and full volume. */
  const Constructed := Manager(map[], map[], [], 1.0)

  function SourceField(f: SourceFields, t: AudioLibraryType): Option<Source>
  {
    match t
    case Player => f.playerAudioSource
    case Horse => f.horseAudioSource
    case Music => f.musicAudioSource
    case MainMenuSFX => f.mainMenuSfxAudioSource
    case MainMenuMusic => f.mainMenuMusicAudioSource
  }

  const AllTypes: set<AudioLibraryType> :=
    {AudioLibraryType.Player, AudioLibraryType.Horse, AudioLibraryType.Music,
     AudioLibraryType.MainMenuSFX, AudioLibraryType.MainMenuMusic}

  /** `InitializeAudioSources`: every assigned field is mapped under its type,
      replacing what was there; unassigned types are left alone. */
  function InitializeAudioSources(m: Manager, f: SourceFields): (r: Manager)
    ensures forall t :: t in r.audioSources <==> t in m.audioSources || SourceField(f, t).Some?
    ensures forall t :: SourceField(f, t).Some? ==> r.audioSources[t] == SourceField(f, t).value
    ensures forall t :: t in m.audioSources && SourceField(f, t).None? ==> r.audioSources[t] == m.audioSources[t]
    ensures r.(audioSources := m.audioSources) == m
  {
    var fromFields := map u | u in AllTypes && SourceField(f, u).Some? :: SourceField(f, u).value;
    m.(audioSources := m.audioSources + fromFields)
  }

  /** After `Awake`'s initialisation of a fresh manager, a type has a source
      exactly when its field was assigned. */
  lemma InitializedSourcesMatchFields(f: SourceFields)
    ensures var r := InitializeAudioSources(Constructed, f);
            forall t :: t in r.audioSources <==> SourceField(f, t).Some?
  {
  }

  /** `RegisterAudioLibrary`: null is ignored, otherwise the type's entry is
      set, replacing any earlier one. */
  function RegisterAudioLibrary(m: Manager, lib: Option<Library>, t: AudioLibraryType): (r: Manager)
    ensures lib.None? ==> r == m
    ensures lib.Some? ==> t in r.audioLibraries && r.audioLibraries[t] == lib.value
    ensures forall u :: u != t ==> (u in r.audioLibraries <==> u in m.audioLibraries)
    ensures forall u :: u != t && u in m.audioLibraries ==> r.audioLibraries[u] == m.audioLibraries[u]
    ensures r.(audioLibraries := m.audioLibraries) == m
  {
    match lib
    case None => m
    case Some(l) => m.(audioLibraries := m.audioLibraries[t := l])
  }

  /** `AudioLibrary.RegisterWithAudioManager`: a library registers itself
      under its own type when a manager instance exists. */
  function RegisterWithAudioManager(instance: Option<Manager>, lib: Library): (r: Option<Manager>)
    ensures r.Some? <==> instance.Some?
    ensures r.Some? ==> lib.libraryType in r.value.audioLibraries && r.value.audioLibraries[lib.libraryType] == lib
  {
    match instance
    case None => Option.None
    case Some(m) => Some(RegisterAudioLibrary(m, Some(lib), lib.libraryType))
  }

  /** Registration is last-writer-wins per type, and registrations for
      different types commute. */
  lemma RegistrationOverwrites(m: Manager, a: Library, b: Library, t: AudioLibraryType, u: AudioLibraryType)
    ensures RegisterAudioLibrary(RegisterAudioLibrary(m, Some(a), t), Some(b), t) == RegisterAudioLibrary(m, Some(b), t)
    ensures t != u ==> RegisterAudioLibrary(RegisterAudioLibrary(m, Some(a), t), Some(b), u)
                       == RegisterAudioLibrary(RegisterAudioLibrary(m, Some(b), u), Some(a), t)
  {
  }

  /** `QueueAudio`: append at the tail. */
  function QueueAudio(m: Manager, audioClipID: int, t: AudioLibraryType): (r: Manager)
    ensures |r.audioClipQueue| == |m.audioClipQueue| + 1
    ensures r.audioClipQueue[..|m.audioClipQueue|] == m.audioClipQueue
    ensures r.audioClipQueue[|m.audioClipQueue|] == AudioClipData(audioClipID, t)
    ensures r.(audioClipQueue := m.audioClipQueue) == m
  {
    m.(audioClipQueue := m.audioClipQueue + [AudioClipData(audioClipID, t)])
  }

  /** The types whose source is not playing; its size bounds how often
      `PlayAudio` can start a source while draining the queue. */
  function IdleTypes(sources: map<AudioLibraryType, Source>): set<AudioLibraryType>
  {
    set t | t in sources && !sources[t].isPlaying
  }

  /** Starting a source never adds an idle one, and removes one if it was idle. */
  lemma StartingLowersIdle(sources: map<AudioLibraryType, Source>, t: AudioLibraryType, s: Source)
    requires t in sources && s.isPlaying
    ensures |IdleTypes(sources[t := s])| <= |IdleTypes(sources)|
    ensures !sources[t].isPlaying ==> |IdleTypes(sources[t := s])| < |IdleTypes(sources)|
  {
    assert IdleTypes(sources[t := s]) == IdleTypes(sources) - {t};
  }

  /** The request is playable: its library, its source and its clip exist. */
  predicate Playable(m: Manager, audioClipID: int, t: AudioLibraryType)
  {
    t in m.audioLibraries && t in m.audioSources
    && GetAudioClipByID(m.audioLibraries[t], audioClipID).Some?
  }

  /** Every source that differs from before was just started at master volume. */
  predicate StartedOnlyAtMasterVolume(m: Manager, r: Manager)
  {
    forall u :: u in r.audioSources && u in m.audioSources && r.audioSources[u] != m.audioSources[u] ==>
      r.audioSources[u].volume == m.masterVolume && r.audioSources[u].isPlaying
  }

  /** `PlayAudio`. A playable request on a busy source without override is
      queued; otherwise the clip is started at master volume, and then the
      queue's head, if any, is dispatched through `PlayNextQueuedAudio`. The
      dispatch recursion ends because each further start needs an idle
      source, and an override call only dispatches non-override requests. */
  function PlayAudio(m: Manager, audioClipID: int, t: AudioLibraryType, shouldOverride: bool): (r: PlayResult)
    ensures r.manager.audioLibraries == m.audioLibraries && r.manager.masterVolume == m.masterVolume
    ensures r.manager.audioSources.Keys == m.audioSources.Keys
    ensures r.outcome == NoLibrary <==> t !in m.audioLibraries
    ensures r.outcome == NoSource <==> t in m.audioLibraries && t !in m.audioSources
    ensures r.outcome == NoClip <==> t in m.audioLibraries && t in m.audioSources
                                     && GetAudioClipByID(m.audioLibraries[t], audioClipID).None?
    ensures r.outcome.Rejected() ==> r.manager == m
    ensures r.outcome == Queued <==> Playable(m, audioClipID, t) && !shouldOverride && m.audioSources[t].isPlaying
    ensures r.outcome == Queued ==> r.manager == m.(audioClipQueue := m.audioClipQueue + [AudioClipData(audioClipID, t)])
    ensures r.outcome.Played? ==>
              && Some(r.outcome.clip) == GetAudioClipByID(m.audioLibraries[t], audioClipID)
              && r.manager.audioSources[t] == Source(Some(r.outcome.clip), m.masterVolume, true)
              && |r.manager.audioClipQueue| <= |m.audioClipQueue|
    ensures forall u :: u in m.audioSources && m.audioSources[u].isPlaying && (u != t || !shouldOverride) ==>
              r.manager.audioSources[u] == m.audioSources[u]
    ensures forall u :: u in m.audioSources && m.audioSources[u].isPlaying ==> r.manager.audioSources[u].isPlaying
    ensures StartedOnlyAtMasterVolume(m, r.manager)
    decreases |IdleTypes(m.audioSources)|, if shouldOverride then 2 else 0
  {
    if t !in m.audioLibraries then PlayResult(m, NoLibrary)
    else if t !in m.audioSources then PlayResult(m, NoSource)
    else
      match GetAudioClipByID(m.audioLibraries[t], audioClipID)
      case None => PlayResult(m, NoClip)
      case Some(clip) =>
        if !shouldOverride && m.audioSources[t].isPlaying then
          PlayResult(QueueAudio(m, audioClipID, t), Queued)
        else
          var started := Source(Some(clip), m.masterVolume, true);
          var m1 := m.(audioSources := m.audioSources[t := started]);
          StartingLowersIdle(m.audioSources, t, started);
          if |m1.audioClipQueue| > 0 then PlayResult(PlayNextQueuedAudio(m1), Played(clip))
          else PlayResult(m1, Played(clip))
  }

  /** `PlayNextQueuedAudio`: remove the head and play it without override;
      nothing happens on an empty queue. */
  function PlayNextQueuedAudio(m: Manager): (r: Manager)
    ensures r.audioLibraries == m.audioLibraries && r.masterVolume == m.masterVolume
    ensures r.audioSources.Keys == m.audioSources.Keys
    ensures |m.audioClipQueue| == 0 ==> r == m
    ensures |r.audioClipQueue| <= |m.audioClipQueue|
    ensures forall u :: u in m.audioSources && m.audioSources[u].isPlaying ==> r.audioSources[u] == m.audioSources[u]
    ensures StartedOnlyAtMasterVolume(m, r)
    ensures |m.audioClipQueue| > 0 ==>
              var h := m.audioClipQueue[0];
              !Playable(m, h.audioClipID, h.audioLibraryType) ==> r == m.(audioClipQueue := m.audioClipQueue[1..])
    ensures |m.audioClipQueue| > 0 ==>
              var h := m.audioClipQueue[0];
              Playable(m, h.audioClipID, h.audioLibraryType) && m.audioSources[h.audioLibraryType].isPlaying ==>
                r == m.(audioClipQueue := m.audioClipQueue[1..] + [h])
    ensures |m.audioClipQueue| > 0 ==>
              var h := m.audioClipQueue[0];
              Playable(m, h.audioClipID, h.audioLibraryType) && !m.audioSources[h.audioLibraryType].isPlaying ==>
                && r.audioSources[h.audioLibraryType].isPlaying
                && r.audioSources[h.audioLibraryType].clip
                   == GetAudioClipByID(m.audioLibraries[h.audioLibraryType], h.audioClipID)
    decreases |IdleTypes(m.audioSources)|, 1
  {
    if |m.audioClipQueue| > 0 then
      var head := m.audioClipQueue[0];
      PlayAudio(m.(audioClipQueue := m.audioClipQueue[1..]), head.audioClipID, head.audioLibraryType, false).manager
    else m
  }

  /** `PlayAudioByName`: look the clip up by name, then play it by its index. */
  function PlayAudioByName(m: Manager, clipName: Option<string>, t: AudioLibraryType, shouldOverride: bool): (r: Manager)
    ensures t !in m.audioLibraries ==> r == m
    ensures t in m.audioLibraries && GetAudioClipID(m.audioLibraries[t], clipName) == -1 ==> r == m
    ensures t in m.audioLibraries && GetAudioClipID(m.audioLibraries[t], clipName) >= 0 ==>
              r == PlayAudio(m, GetAudioClipID(m.audioLibraries[t], clipName), t, shouldOverride).manager
  {
    if t !in m.audioLibraries then m
    else
      var lib := m.audioLibraries[t];
      IdAndNameLookupsAgree(lib, clipName);
      if GetAudioClipByName(lib, clipName).None? then m
      else
        var id := GetAudioClipID(lib, clipName);
        if id >= 0 then PlayAudio(m, id, t, shouldOverride).manager else m
  }

  function StopAudio(m: Manager, t: AudioLibraryType): (r: Manager)
    ensures !IsPlaying(r, t)
    ensures forall u :: u != t ==> IsPlaying(r, u) == IsPlaying(m, u)
    ensures r.audioSources.Keys == m.audioSources.Keys
    ensures forall u :: u in m.audioSources && u != t ==> r.audioSources[u] == m.audioSources[u]
    ensures forall u :: u in m.audioSources ==>
              r.audioSources[u].(isPlaying := m.audioSources[u].isPlaying) == m.audioSources[u]
    ensures r.(audioSources := m.audioSources) == m
  {
    if t in m.audioSources then
      m.(audioSources := m.audioSources[t := m.audioSources[t].(isPlaying := false)])
    else m
  }

  function StopAllAudio(m: Manager): (r: Manager)
    ensures forall u :: !IsPlaying(r, u)
    ensures r.audioSources.Keys == m.audioSources.Keys
    ensures r.(audioSources := m.audioSources) == m
  {
    m.(audioSources := map u | u in m.audioSources :: m.audioSources[u].(isPlaying := false))
  }

  /** `Mathf.Clamp01`. */
  function Clamp01(v: real): (r: real)
    ensures 0.0 <= r <= 1.0
    ensures 0.0 <= v <= 1.0 ==> r == v
    ensures v < 0.0 ==> r == 0.0
    ensures v > 1.0 ==> r == 1.0
  {
    if v < 0.0 then 0.0 else if v > 1.0 then 1.0 else v
  }

  /** Every source plays at the master volume. */
  predicate UniformVolume(m: Manager)
  {
    forall u :: u in m.audioSources ==> m.audioSources[u].volume == m.masterVolume
  }

  /** `SetMasterVolume`: clamp to [0, 1] and apply it to every source. */
  function SetMasterVolume(m: Manager, volume: real): (r: Manager)
    ensures 0.0 <= r.masterVolume <= 1.0
    ensures r.masterVolume == Clamp01(volume)
    ensures UniformVolume(r)
    ensures r.audioSources.Keys == m.audioSources.Keys
    ensures forall u :: u in m.audioSources ==> r.audioSources[u].(volume := m.audioSources[u].volume) == m.audioSources[u]
    ensures r.audioLibraries == m.audioLibraries && r.audioClipQueue == m.audioClipQueue
  {
    var v := Clamp01(volume);
    m.(masterVolume := v, audioSources := map u | u in m.audioSources :: m.audioSources[u].(volume := v))
  }

  /** Once the master volume has been applied, playing anything keeps every
      source at the master volume. */
  lemma PlayingKeepsUniformVolume(m: Manager, audioClipID: int, t: AudioLibraryType, shouldOverride: bool)
    requires UniformVolume(m)
    ensures UniformVolume(PlayAudio(m, audioClipID, t, shouldOverride).manager)
  {
  }

  function IsPlaying(m: Manager, t: AudioLibraryType): (r: bool)
    ensures r ==> t in m.audioSources
  {
    t in m.audioSources && m.audioSources[t].isPlaying
  }

  function GetQueueCount(m: Manager): (r: nat)
    ensures r == |m.audioClipQueue|
  {
    |m.audioClipQueue|
  }

  function ClearQueue(m: Manager): (r: Manager)
    ensures GetQueueCount(r) == 0
    ensures r.(audioClipQueue := m.audioClipQueue) == m
  {
    m.(audioClipQueue := [])
  }

  /** A queued request waits behind a busy source; a played one leaves its
      source busy with the clip it asked for. */
  lemma PlayOutcomeMatchesSourceState(m: Manager, audioClipID: int, t: AudioLibraryType, shouldOverride: bool)
    ensures var r := PlayAudio(m, audioClipID, t, shouldOverride);
            (r.outcome == Queued ==> IsPlaying(m, t) && IsPlaying(r.manager, t)
                                     && GetQueueCount(r.manager) == GetQueueCount(m) + 1)
            && (r.outcome.Played? ==> IsPlaying(r.manager, t)
                                      && r.manager.audioSources[t].clip == Some(r.outcome.clip))
  {
  }

  /** With a request appended to a non-empty queue, the next dispatch deals
      with the old head first: it drops it, sends it to the tail behind the
      new request (so the new request is served before it), or plays it. */
  lemma HeadDispatchedFirst(m: Manager, audioClipID: int, t: AudioLibraryType)
    requires |m.audioClipQueue| > 0
    ensures var h := m.audioClipQueue[0];
            var a := AudioClipData(audioClipID, t);
            var r := PlayNextQueuedAudio(QueueAudio(m, audioClipID, t));
            && (!Playable(m, h.audioClipID, h.audioLibraryType) ==>
                  r.audioClipQueue == m.audioClipQueue[1..] + [a])
            && (Playable(m, h.audioClipID, h.audioLibraryType) && m.audioSources[h.audioLibraryType].isPlaying ==>
                  r.audioClipQueue == m.audioClipQueue[1..] + [a, h])
            && (Playable(m, h.audioClipID, h.audioLibraryType) && !m.audioSources[h.audioLibraryType].isPlaying ==>
                  r.audioSources[h.audioLibraryType].clip
                  == GetAudioClipByID(m.audioLibraries[h.audioLibraryType], h.audioClipID))
  {
    var a := AudioClipData(audioClipID, t);
    var q := QueueAudio(m, audioClipID, t);
    assert q.audioClipQueue[0] == m.audioClipQueue[0];
    assert q.audioClipQueue[1..] == m.audioClipQueue[1..] + [a];
    assert q.audioClipQueue[1..] + [m.audioClipQueue[0]] == m.audioClipQueue[1..] + [a, m.audioClipQueue[0]];
  }

  /** Dispatch is not first-come, first-served: when the head starts on its
      idle source, the drain goes on to the next request, and if that one
      needs the same, now busy, source it goes to the tail behind a request
      queued after it. */
  lemma BusyRequestRequeuedBehindNewer(m: Manager, audioClipID: int, t: AudioLibraryType)
    requires |m.audioClipQueue| >= 2
    requires var h0 := m.audioClipQueue[0];
             var h1 := m.audioClipQueue[1];
             && Playable(m, h0.audioClipID, h0.audioLibraryType)
             && !m.audioSources[h0.audioLibraryType].isPlaying
             && Playable(m, h1.audioClipID, h1.audioLibraryType)
             && h1.audioLibraryType == h0.audioLibraryType
    ensures var r := PlayNextQueuedAudio(QueueAudio(m, audioClipID, t));
            r.audioClipQueue == m.audioClipQueue[2..] + [AudioClipData(audioClipID, t), m.audioClipQueue[1]]
  {
    var h0 := m.audioClipQueue[0];
    var h1 := m.audioClipQueue[1];
    var a := AudioClipData(audioClipID, t);
    var q := QueueAudio(m, audioClipID, t);
    assert q.audioClipQueue[0] == h0;
    var q1 := q.(audioClipQueue := q.audioClipQueue[1..]);
    assert q1.audioClipQueue == m.audioClipQueue[1..] + [a];
    var clip := GetAudioClipByID(m.audioLibraries[h0.audioLibraryType], h0.audioClipID).value;
    var started := Source(Some(clip), m.masterVolume, true);
    var m1 := q1.(audioSources := q1.audioSources[h0.audioLibraryType := started]);
    assert PlayAudio(q1, h0.audioClipID, h0.audioLibraryType, false).manager == PlayNextQueuedAudio(m1);
    assert m1.audioClipQueue[0] == h1;
    assert m1.audioClipQueue[1..] + [h1] == m.audioClipQueue[2..] + [a, h1];
  }
}

=== FILE: body_part_setup.dfy ===
/** The training scene's body-part set-up (Assets/Scripts/BodyPartSetup.cs).
    `Start` reads the loader's record and activates one child of the horse
    model for the body part and, under it, one child for the leg. The
    activation is returned as child indices instead of `SetActive` calls. */
module BodyPartSetup {

  import opened Wrappers
  import opened SelectionEnums
  import SDL = ScenarioDataLoader
  import MainMenu

  /** Which child was activated, and which grandchild under it. */
  datatype Activation = Activation(bodyChild: Option<nat>, legChild: Option<nat>)

  const NothingActivated := Activation(Option.None, Option.None)

  /** The `Start` switch: child 0..5 for Fetlock, Foot, Carpus, Tarsus, Stifle, Head. */
  function BodyPartChild(b: BodyPart): (r: Option<nat>)
    ensures r.Some? <==> b != BodyPart.None && b != BodyPart.Default
    ensures r.Some? ==> r.value < 6 && r.value + 1 == BodyPartOrdinal(b)
  {
    match b
    case Fetlock => Some(0)
    case Foot => Some(1)
    case Carpus => Some(2)
    case Tarsus => Some(3)
    case Stifle => Some(4)
    case Head => Some(5)
    case _ => Option.None
  }

  /** The `LegSelection` switch: child 0..3 for FrontLeft, FrontRight, HindLeft, HindRight. */
  function LegChild(l: LegSelect): (r: Option<nat>)
    ensures r.Some? <==> l != LegSelect.None
    ensures r.Some? ==> r.value < 4 && r.value + 1 == LegOrdinal(l)
  {
    match l
    case FrontLeft => Some(0)
    case FrontRight => Some(1)
    case HindLeft => Some(2)
    case HindRight => Some(3)
    case None => Option.None
  }

  /** `ActivateBodyPart` followed by `LegSelection`/`ActivateLeg`. */
  function ActivateBodyPart(l: LegSelect, index: nat): (r: Activation)
    ensures r.bodyChild == Some(index)
    ensures r.legChild == LegChild(l)
  {
    Activation(Some(index), LegChild(l))
  }

  /** `Start`; `None` stands for a missing `ScenarioDataLoader.Instance`, on
      which the script throws before activating anything. */
  function Start(instanceData: Option<SDL.ScenarioData>): (r: Activation)
    ensures r.legChild.Some? ==> r.bodyChild.Some?
    ensures r.bodyChild.Some? ==> r.bodyChild.value < 6
    ensures r.legChild.Some? ==> r.legChild.value < 4
    ensures instanceData.None? ==> r == NothingActivated
    ensures instanceData.Some? ==> r.bodyChild == BodyPartChild(instanceData.value.bodyPart)
    ensures instanceData.Some? && r.bodyChild.Some? ==> r.legChild == LegChild(instanceData.value.legSelection)
  {
    match instanceData
    case None => NothingActivated
    case Some(d) =>
      match BodyPartChild(d.bodyPart)
      case Some(index) => ActivateBodyPart(d.legSelection, index)
      case None => NothingActivated
  }

  /** Both child mappings are injective, so distinct selections light up
      distinct objects. */
  lemma ChildMappingsInjective(a: BodyPart, b: BodyPart, k: LegSelect, l: LegSelect)
    ensures BodyPartChild(a).Some? && BodyPartChild(a) == BodyPartChild(b) ==> a == b
    ensures LegChild(k).Some? && LegChild(k) == LegChild(l) ==> k == l
  {
  }

  /** The scene's child order matches the menu's dropdown order: the dropdown
      index chosen in the menu is the child index activated in the scene. */
  lemma DropdownIndexIsChildIndex(i: int)
    ensures 0 <= i < 6 ==> BodyPartChild(MainMenu.BodyPartForIndex(i)) == Some(i)
    ensures 0 <= i < 4 ==> LegChild(MainMenu.LegForIndex(i)) == Some(i)
    ensures !(0 <= i < 6) ==> BodyPartChild(MainMenu.BodyPartForIndex(i)).None?
  {
  }

  /** A selection that passed the menu's completeness gate and was confirmed
      activates exactly the chosen body part and, under it, the chosen leg.
      `BodyPart.Default` is excluded: no dropdown produces it (see
      `MainMenu.DropdownIndicesAreOrdinals`), and `DefaultPassesGatesButActivatesNothing`
      shows what it would do. */
  lemma ConfirmedSelectionActivatesScene(s: MainMenu.Selections, d: SDL.ScenarioData)
    requires MainMenu.ContinueCheck(s) && s.bodyPart != BodyPart.Default
    ensures var c := MainMenu.OnConfirmationButtonPressed(s, Some(d));
            var a := Start(c.store);
            a.bodyChild.Some? && a.legChild.Some?
            && a.bodyChild.value + 1 == BodyPartOrdinal(s.bodyPart)
            && a.legChild.value + 1 == LegOrdinal(s.legSelection)
  {
    var c := MainMenu.OnConfirmationButtonPressed(s, Some(d));
    assert c.store == Some(s);
  }

  /** `BodyPart.Default` passes both menu checks but the scene activates nothing for it. */
  lemma DefaultPassesGatesButActivatesNothing(s: MainMenu.Selections)
    requires MainMenu.ContinueCheck(s) && s.bodyPart == BodyPart.Default
    ensures MainMenu.CheckScenarioData(s)
    ensures Start(Some(s)) == NothingActivated
  {
  }

  /** A record the validator accepts activates no leg when its leg is `None`,
      since the validator never looks at the leg; a real body part is still
      activated. */
  lemma ValidRecordMayActivateNoLeg(d: SDL.ScenarioData)
    requires MainMenu.CheckScenarioData(d) && d.legSelection == LegSelect.None
    requires d.bodyPart != BodyPart.Default
    ensures Start(Some(d)).bodyChild.Some? && Start(Some(d)).legChild.None?
    ensures Start(Some(d)).bodyChild.value + 1 == BodyPartOrdinal(d.bodyPart)
  {
  }
}

=== FILE: danger.dfy ===
/** A danger-zone trigger beside the horse (Assets/eqvr_Scripts/Danger.cs).
    The zone shows its mesh while the player is inside, plays its own
    warning clip twice on each player entry, and asks the audio manager for
    a horse clip that depends on the zone's side and on whether anything has
    entered before. The MeshRenderer and AudioSource components are taken to
    exist, as `Start` expects. */
module Danger {

  import opened Wrappers
  import AudioLibrary
  import AudioManager

  datatype Side = Front | Back

  datatype Zone = Zone(side: Side, hasEntered: bool, meshEnabled: bool)

  /** A request for `AudioManager.PlayAudio(audioClipID, Horse, shouldOverride)`. */
  datatype HorseCue = HorseCue(audioClipID: int, shouldOverride: bool)

  /** `OnTriggerEnter`: the new zone, how many `PlayOneShot` calls were made
      on the zone's own source, and the horse cue sent, if any. */
  datatype EnterResult = EnterResult(zone: Zone, oneShots: nat, cue: Option<HorseCue>)

  /** `OnTriggerExit`: the new zone and whether the zone's source was stopped. */
  datatype ExitResult = ExitResult(zone: Zone, stopped: bool)

  datatype TriggerEvent = Enter(tag: string) | Exit(tag: string)

  const PlayerTag: string := "Player"

  // Horse library clip indices used by the zones.
  const FrontFirstClip := 3
  const FrontRepeatClip := 4
  const BackFirstClip := 5
  const BackRepeatClip := 6

  /** A zone after `Start`: nothing entered yet, mesh hidden. */
  function Start(side: Side): (z: Zone)
    ensures z.side == side && !z.hasEntered && !z.meshEnabled
  {
    Zone(side, false, false)
  }

  function OnTriggerEnter(z: Zone, tag: string): (r: EnterResult)
    ensures r.zone.hasEntered && r.zone.side == z.side
    ensures tag == PlayerTag ==> r.zone.meshEnabled && r.oneShots == 2
    ensures tag == PlayerTag ==> r.cue.Some? && r.cue.value.shouldOverride
    ensures tag == PlayerTag && z.side == Front ==>
              r.cue.value.audioClipID == if z.hasEntered then FrontRepeatClip else FrontFirstClip
    ensures tag == PlayerTag && z.side == Back ==>
              r.cue.value.audioClipID == if z.hasEntered then BackRepeatClip else BackFirstClip
    ensures tag != PlayerTag ==> r == EnterResult(z.(hasEntered := true), 0, Option.None)
  {
    if tag == PlayerTag then
      var shown := z.(meshEnabled := true);
      var clip :=
        match z.side
        case Front => if z.hasEntered then FrontRepeatClip else FrontFirstClip
        case Back => if z.hasEntered then BackRepeatClip else BackFirstClip;
      EnterResult(shown.(hasEntered := true), 2, Some(HorseCue(clip, true)))
    else
      EnterResult(z.(hasEntered := true), 0, Option.None)
  }

  function OnTriggerExit(z: Zone, tag: string): (r: ExitResult)
    ensures tag == PlayerTag ==> r == ExitResult(z.(meshEnabled := false), true)
    ensures tag != PlayerTag ==> r == ExitResult(z, false)
  {
    if tag == PlayerTag then ExitResult(z.(meshEnabled := false), true)
    else ExitResult(z, false)
  }

  function Step(z: Zone, e: TriggerEvent): Zone
  {
    match e
    case Enter(tag) => OnTriggerEnter(z, tag).zone
    case Exit(tag) => OnTriggerExit(z, tag).zone
  }

  function Run(z: Zone, es: seq<TriggerEvent>): Zone
    decreases |es|
  {
    if |es| == 0 then z else Run(Step(z, es[0]), es[1..])
  }

  /** `hasEntered` is sticky and set by any entry, player or not: after a run
      of events it holds exactly when it held before or some event was an entry.
      The side never changes. */
  lemma {:induction false} EnteredIffAnyEntry(z: Zone, es: seq<TriggerEvent>)
    ensures Run(z, es).hasEntered <==> z.hasEntered || exists i :: 0 <= i < |es| && es[i].Enter?
    ensures Run(z, es).side == z.side
    decreases |es|
  {
    if |es| > 0 {
      EnteredIffAnyEntry(Step(z, es[0]), es[1..]);
      if exists i :: 0 <= i < |es[1..]| && es[1..][i].Enter? {
        var i :| 0 <= i < |es[1..]| && es[1..][i].Enter?;
        assert es[i + 1].Enter?;
      }
      if exists i :: 0 <= i < |es| && es[i].Enter? {
        var i :| 0 <= i < |es| && es[i].Enter?;
        if i > 0 {
          assert es[1..][i - 1].Enter?;
        }
      }
    }
  }

  /** A player entering a fresh zone after some history hears the first-entry
      clip exactly when no entry of any kind happened before; in particular a
      non-player collider entering first makes the player's first visit sound
      like a repeat. */
  lemma FirstClipIffNoEarlierEntry(side: Side, history: seq<TriggerEvent>)
    ensures var z := Run(Start(side), history);
            var clip := OnTriggerEnter(z, PlayerTag).cue.value.audioClipID;
            (clip == FrontFirstClip || clip == BackFirstClip) <==> forall i :: 0 <= i < |history| ==> !history[i].Enter?
  {
    EnteredIffAnyEntry(Start(side), history);
  }

  /** `OnTriggerEnter` with its horse cue delivered to `AudioManager.Instance`,
      `None` when there is no instance. A player entry then throws at the
      `PlayAudio` call, after the mesh is shown and both one-shots have played
      but before `hasEntered` is set, so no cue is sent and the flag keeps
      its value. */
  function EnterWithAudio(z: Zone, tag: string, audio: Option<AudioManager.Manager>)
    : (r: (EnterResult, Option<AudioManager.Manager>))
    ensures tag != PlayerTag ==> r == (OnTriggerEnter(z, tag), audio)
    ensures audio.Some? ==> r.0 == OnTriggerEnter(z, tag) && r.1.Some?
    ensures audio.Some? && tag == PlayerTag ==>
              var cue := OnTriggerEnter(z, tag).cue.value;
              r.1 == Some(AudioManager.PlayAudio(audio.value, cue.audioClipID,
                                                 AudioLibrary.AudioLibraryType.Horse, true).manager)
    ensures audio.None? && tag == PlayerTag ==>
              && r == (EnterResult(z.(meshEnabled := true), 2, Option.None), Option.None)
              && r.0.zone.hasEntered == z.hasEntered
  {
    var e := OnTriggerEnter(z, tag);
    match e.cue
    case None => (e, audio)
    case Some(cue) =>
      match audio
      case None => (EnterResult(z.(meshEnabled := true), 2, Option.None), Option.None)
      case Some(a) =>
        (e, Some(AudioManager.PlayAudio(a, cue.audioClipID, AudioLibrary.AudioLibraryType.Horse, cue.shouldOverride).manager))
  }

  /** Without an audio manager a player never marks the zone as entered, so
      every player visit counts as a first entry and asks for the first-entry
      clip, which the missing manager never plays. */
  lemma {:induction false} MissingManagerKeepsFirstEntry(z: Zone, n: nat)
    requires !z.hasEntered
    ensures var after := PlayerEntriesWithoutManager(z, n);
            !after.hasEntered && after.side == z.side
            && OnTriggerEnter(after, PlayerTag).cue.value.audioClipID
               == if z.side == Front then FrontFirstClip else BackFirstClip
    decreases n
  {
    if n > 0 {
      MissingManagerKeepsFirstEntry(EnterWithAudio(z, PlayerTag, Option.None).0.zone, n - 1);
    }
  }

  /** The zone after `n` player entries with no audio manager. */
  function PlayerEntriesWithoutManager(z: Zone, n: nat): Zone
    decreases n
  {
    if n == 0 then z else PlayerEntriesWithoutManager(EnterWithAudio(z, PlayerTag, Option.None).0.zone, n - 1)
  }

  /** The zone's horse cue overrides: it is never queued behind a playing horse
      clip, and whenever the horse library holds the requested clip and a horse
      source exists, that clip is what the horse source plays afterwards. */
  lemma DangerCueInterruptsHorse(z: Zone, audio: AudioManager.Manager)
    ensures var cue := OnTriggerEnter(z, PlayerTag).cue.value;
            var p := AudioManager.PlayAudio(audio, cue.audioClipID, AudioLibrary.AudioLibraryType.Horse, true);
            p.outcome != AudioManager.Queued
            && (AudioManager.Playable(audio, cue.audioClipID, AudioLibrary.AudioLibraryType.Horse) ==>
                  p.outcome.Played? && AudioManager.IsPlaying(p.manager, AudioLibrary.AudioLibraryType.Horse)
                  && p.manager.audioSources[AudioLibrary.AudioLibraryType.Horse].clip
                     == AudioLibrary.GetAudioClipByID(audio.audioLibraries[AudioLibrary.AudioLibraryType.Horse], cue.audioClipID))
  {
  }
}

=== FILE: input_script.dfy ===
/** Rising-edge detection for the A and X controller buttons
    (Assets/eqvr_JointMarkers/InputScript.cs, `Update`). Device polling is
    an input: per channel and frame, whether the cached device was valid at
    the start of the frame, and the result of `TryGetFeatureValue` on the
    (possibly re-acquired) device, `None` when the read fails. */
module InputScript {

  import opened Wrappers

  /** One channel's frame input. */
  datatype ChannelInput = ChannelInput(deviceValid: bool, reading: Option<bool>)

  /** One channel's new previous-state and whether its event fired. */
  datatype ChannelStep = ChannelStep(prev: bool, fired: bool)

  /** The script's state: the previous A and X readings. */
  datatype InputState = InputState(prevA: bool, prevX: bool)

  /** One `Update`: the new state and which events were invoked. */
  datatype Frame = Frame(state: InputState, aPressed: bool, xPressed: bool)

  const InitialState := InputState(false, false)

  /** The previous state the edge test sees: reset to false when the device
      had to be re-acquired. */
  function EffectivePrev(prev: bool, inp: ChannelInput): bool
  {
    if inp.deviceValid then prev else false
  }

  /** One channel of `Update`. */
  function StepChannel(prev: bool, inp: ChannelInput): (r: ChannelStep)
    ensures r.fired <==> inp.reading == Some(true) && !EffectivePrev(prev, inp)
    ensures inp.reading.Some? ==> r.prev == inp.reading.value
    ensures inp.reading.None? ==> r.prev == EffectivePrev(prev, inp)
    ensures !inp.deviceValid && inp.reading.None? ==> !r.prev
  {
    var p := if !inp.deviceValid then false else prev;
    match inp.reading
    case Some(pressed) => ChannelStep(pressed, pressed && !p)
    case None => ChannelStep(p, false)
  }

  /** `Update`: the A channel, then the X channel, each on its own state. */
  function Update(s: InputState, a: ChannelInput, x: ChannelInput): (r: Frame)
    ensures r.aPressed <==> a.reading == Some(true) && !EffectivePrev(s.prevA, a)
    ensures r.xPressed <==> x.reading == Some(true) && !EffectivePrev(s.prevX, x)
    ensures r.state.prevA == StepChannel(s.prevA, a).prev
    ensures r.state.prevX == StepChannel(s.prevX, x).prev
  {
    var sa := StepChannel(s.prevA, a);
    var sx := StepChannel(s.prevX, x);
    Frame(InputState(sa.prev, sx.prev), sa.fired, sx.fired)
  }

  /** The channels are independent: the X input never affects A's state or
      event, and the A input never affects X's. */
  lemma ChannelsIndependent(s: InputState, a: ChannelInput, a': ChannelInput, x: ChannelInput, x': ChannelInput)
    ensures Update(s, a, x).aPressed == Update(s, a, x').aPressed
    ensures Update(s, a, x).state.prevA == Update(s, a, x').state.prevA
    ensures Update(s, a, x).xPressed == Update(s, a', x).xPressed
    ensures Update(s, a, x).state.prevX == Update(s, a', x).state.prevX
  {
  }

  // Runs of frames on one channel with a valid device and successful reads.

  /** The previous state after a run of successful readings. */
  function LastReading(prev: bool, readings: seq<bool>): bool
  {
    if |readings| == 0 then prev else readings[|readings| - 1]
  }

  /** Number of events fired over a run of frames with a valid device and
      successful reads, by stepping the channel frame by frame. */
  function FireCount(prev: bool, readings: seq<bool>): nat
    decreases |readings|
  {
    if |readings| == 0 then 0
    else
      var step := StepChannel(prev, ChannelInput(true, Some(readings[0])));
      (if step.fired then 1 else 0) + FireCount(step.prev, readings[1..])
  }

  function Repeat(b: bool, n: nat): (r: seq<bool>)
    ensures |r| == n && forall i :: 0 <= i < n ==> r[i] == b
  {
    if n == 0 then [] else [b] + Repeat(b, n - 1)
  }

  /** Firing over consecutive runs adds up, with the second run starting from
      the state the first one left. */
  lemma {:induction false} FireCountSplits(prev: bool, a: seq<bool>, b: seq<bool>)
    ensures FireCount(prev, a + b) == FireCount(prev, a) + FireCount(LastReading(prev, a), b)
    decreases |a|
  {
    if |a| > 0 {
      assert (a + b)[0] == a[0];
      assert (a + b)[1..] == a[1..] + b;
      var step := StepChannel(prev, ChannelInput(true, Some(a[0])));
      assert step.prev == a[0];
      FireCountSplits(a[0], a[1..], b);
      assert LastReading(a[0], a[1..]) == LastReading(prev, a);
    } else {
      assert a + b == b;
    }
  }

  /** Holding the button from a released state fires once, on the first frame;
      holding it from a pressed state fires never. */
  lemma {:induction false} HoldFiresOnce(prev: bool, n: nat)
    requires n > 0
    ensures FireCount(prev, Repeat(true, n)) == if prev then 0 else 1
    decreases n
  {
    var rs := Repeat(true, n);
    assert rs[1..] == Repeat(true, n - 1);
    if n > 1 {
      HoldFiresOnce(true, n - 1);
    }
  }

  /** Released frames never fire. */
  lemma {:induction false} ReleaseNeverFires(prev: bool, n: nat)
    ensures FireCount(prev, Repeat(false, n)) == 0
    decreases n
  {
    if n > 0 {
      var rs := Repeat(false, n);
      assert rs[1..] == Repeat(false, n - 1);
      ReleaseNeverFires(false, n - 1);
    }
  }

  /** A press: the button held for `held + 1` frames, then released for
      `released + 1` frames. */
  datatype Press = Press(held: nat, released: nat)

  function PressFrames(ps: seq<Press>): (r: seq<bool>)
    decreases |ps|
  {
    if |ps| == 0 then []
    else Repeat(true, ps[0].held + 1) + Repeat(false, ps[0].released + 1) + PressFrames(ps[1..])
  }

  /** Exactly one event per press: starting released, any sequence of presses
      fires as many events as it has presses. */
  lemma {:induction false} OneEventPerPress(ps: seq<Press>)
    ensures FireCount(false, PressFrames(ps)) == |ps|
    decreases |ps|
  {
    if |ps| > 0 {
      var hold := Repeat(true, ps[0].held + 1);
      var rel := Repeat(false, ps[0].released + 1);
      var rest := PressFrames(ps[1..]);
      assert PressFrames(ps) == hold + (rel + rest);
      FireCountSplits(false, hold, rel + rest);
      HoldFiresOnce(false, ps[0].held + 1);
      FireCountSplits(true, rel, rest);
      ReleaseNeverFires(true, ps[0].released + 1);
      OneEventPerPress(ps[1..]);
    }
  }
}

=== FILE: main_menu.dfy ===
/** The scenario-selection menu (Assets/Scripts/NewMainMenuFunctions.cs).
    The five private selection fields form a `ScenarioData` record; every
    button and dropdown handler is a pure step on it. Menu panels, label
    texts and logging are left out; whether the confirmation screen is shown
    is kept as an output, since it is the one decision the handlers make. */
module MainMenu {

  import opened Wrappers
  import opened SelectionEnums
  import SDL = ScenarioDataLoader

  /** The menu's five selection fields. */
  type Selections = SDL.ScenarioData

  /** Serialized enum fields start at ordinal 0, i.e. `None`. */
  const Initial: Selections := SDL.Cleared

  /** A handler's new selections and whether it showed the confirmation screen. */
  datatype MenuStep = MenuStep(sel: Selections, confirmationShown: bool)

  /** Result of the confirmation button: the menu's selections and the
      record held by `ScenarioDataLoader.Instance` (`None` when there is no
      instance, in which case the handler throws before doing anything). */
  datatype ConfirmResult = ConfirmResult(sel: Selections, store: Option<SDL.ScenarioData>)

  /** The lists `Start` fills for the assessment randomisation. */
  const RandomXrayTypes: seq<XrayType> := [XrayType.DP_DPI, XrayType.LM, XrayType.DLPMO, XrayType.DMPLO]
  const RandomBodyParts: seq<BodyPart> :=
    [BodyPart.Fetlock, BodyPart.Foot, BodyPart.Carpus, BodyPart.Tarsus, BodyPart.Stifle, BodyPart.Head]

  /** The ordinals of the five fields, in the order mode, task, x-ray, body part, leg. */
  function Ordinals(s: Selections): seq<nat>
  {
    [ModeOrdinal(s.trainingMode), TaskOrdinal(s.taskType), XrayOrdinal(s.xrayType),
     BodyPartOrdinal(s.bodyPart), LegOrdinal(s.legSelection)]
  }

  // Dropdown index to enum value: the switches of the selection handlers.

  function TaskForIndex(i: int): (t: TaskType)
    ensures 0 <= i < 3 ==> TaskOrdinal(t) == i + 1
    ensures !(0 <= i < 3) ==> t == TaskType.None
  {
    match i
    case 0 => TaskType.Emitter
    case 1 => TaskType.Plate
    case 2 => TaskType.Both
    case _ => TaskType.None
  }

  function XrayForIndex(i: int): (x: XrayType)
    ensures 0 <= i < 4 ==> XrayOrdinal(x) == i + 1
    ensures !(0 <= i < 4) ==> x == XrayType.None
  {
    match i
    case 0 => XrayType.DP_DPI
    case 1 => XrayType.LM
    case 2 => XrayType.DLPMO
    case 3 => XrayType.DMPLO
    case _ => XrayType.None
  }

  function BodyPartForIndex(i: int): (b: BodyPart)
    ensures 0 <= i < 6 ==> BodyPartOrdinal(b) == i + 1
    ensures !(0 <= i < 6) ==> b == BodyPart.None
    ensures b != BodyPart.Default
  {
    match i
    case 0 => BodyPart.Fetlock
    case 1 => BodyPart.Foot
    case 2 => BodyPart.Carpus
    case 3 => BodyPart.Tarsus
    case 4 => BodyPart.Stifle
    case 5 => BodyPart.Head
    case _ => BodyPart.None
  }

  function LegForIndex(i: int): (l: LegSelect)
    ensures 0 <= i < 4 ==> LegOrdinal(l) == i + 1
    ensures !(0 <= i < 4) ==> l == LegSelect.None
  {
    match i
    case 0 => LegSelect.FrontLeft
    case 1 => LegSelect.FrontRight
    case 2 => LegSelect.HindLeft
    case 3 => LegSelect.HindRight
    case _ => LegSelect.None
  }

  /** Every selectable member is reached by exactly one dropdown index, the
      one just below its ordinal; `BodyPart.Default` is never reached. */
  lemma DropdownIndicesAreOrdinals()
    ensures forall t: TaskType :: t != TaskType.None ==> TaskForIndex(TaskOrdinal(t) - 1) == t
    ensures forall x: XrayType :: x != XrayType.None ==> XrayForIndex(XrayOrdinal(x) - 1) == x
    ensures forall l: LegSelect :: l != LegSelect.None ==> LegForIndex(LegOrdinal(l) - 1) == l
    ensures forall b: BodyPart :: b != BodyPart.None && b != BodyPart.Default ==>
              BodyPartForIndex(BodyPartOrdinal(b) - 1) == b
    ensures forall i: int :: BodyPartForIndex(i) != BodyPart.Default
    ensures forall i: int, j: int :: 0 <= i < 6 && 0 <= j < 6 && BodyPartForIndex(i) == BodyPartForIndex(j) ==> i == j
  {
  }

  /** `ContinueCheck`: the confirmation screen is shown once all five fields are chosen. */
  function ContinueCheck(s: Selections): (r: bool)
    ensures r <==> forall k :: 0 <= k < 5 ==> Ordinals(s)[k] > 0
    ensures r ==> CheckScenarioData(s)
  {
    assert (forall k :: 0 <= k < 5 ==> Ordinals(s)[k] > 0) <==>
           Ordinals(s)[0] > 0 && Ordinals(s)[1] > 0 && Ordinals(s)[2] > 0 && Ordinals(s)[3] > 0 && Ordinals(s)[4] > 0;
    && s.trainingMode != TrainingMode.None
    && s.taskType != TaskType.None
    && s.xrayType != XrayType.None
    && s.bodyPart != BodyPart.None
    && s.legSelection != LegSelect.None
  }

  /** `CheckScenarioData`: the validator run on confirmation, with its early returns. */
  function CheckScenarioData(s: Selections): (r: bool)
    ensures r <==> ModeOrdinal(s.trainingMode) > 0 && XrayOrdinal(s.xrayType) > 0 && BodyPartOrdinal(s.bodyPart) > 0
  {
    if s.trainingMode == TrainingMode.None then false
    else if s.xrayType == XrayType.None then false
    else if s.bodyPart == BodyPart.None then false
    else true
  }

  // Mode buttons.

  function OnGuidedModeButtonPressed(s: Selections): (r: Selections)
    ensures r.trainingMode == TrainingMode.GuidedMode
    ensures r.(trainingMode := s.trainingMode) == s
  {
    s.(trainingMode := TrainingMode.GuidedMode)
  }

  function OnAssessmentButtonPressed(s: Selections): (r: Selections)
    ensures r.trainingMode == TrainingMode.AssessmentMode
    ensures r.(trainingMode := s.trainingMode) == s
  {
    s.(trainingMode := TrainingMode.AssessmentMode)
  }

  // Dropdown handlers. The task handler does not run `ContinueCheck`; the other three do.

  function OnTaskSelection(s: Selections, selection: int): (r: Selections)
    ensures TaskOrdinal(r.taskType) == if 0 <= selection < 3 then selection + 1 else 0
    ensures r.(taskType := s.taskType) == s
  {
    s.(taskType := TaskForIndex(selection))
  }

  function OnXrayTypeSelected(s: Selections, selection: int): (r: MenuStep)
    ensures XrayOrdinal(r.sel.xrayType) == if 0 <= selection < 4 then selection + 1 else 0
    ensures r.sel.(xrayType := s.xrayType) == s
    ensures r.confirmationShown <==> ContinueCheck(r.sel)
  {
    var next := s.(xrayType := XrayForIndex(selection));
    MenuStep(next, ContinueCheck(next))
  }

  function OnBodyPartSelected(s: Selections, selection: int): (r: MenuStep)
    ensures BodyPartOrdinal(r.sel.bodyPart) == if 0 <= selection < 6 then selection + 1 else 0
    ensures r.sel.(bodyPart := s.bodyPart) == s
    ensures r.confirmationShown <==> ContinueCheck(r.sel)
  {
    var next := s.(bodyPart := BodyPartForIndex(selection));
    MenuStep(next, ContinueCheck(next))
  }

  function OnLegSelection(s: Selections, selection: int): (r: MenuStep)
    ensures LegOrdinal(r.sel.legSelection) == if 0 <= selection < 4 then selection + 1 else 0
    ensures r.sel.(legSelection := s.legSelection) == s
    ensures r.confirmationShown <==> ContinueCheck(r.sel)
  {
    var next := s.(legSelection := LegForIndex(selection));
    MenuStep(next, ContinueCheck(next))
  }

  /** `ResetSelections` clears mode, task, x-ray type and body part, but not the leg. */
  function ResetSelections(s: Selections): (r: Selections)
    ensures r.trainingMode == TrainingMode.None && r.taskType == TaskType.None
    ensures r.xrayType == XrayType.None && r.bodyPart == BodyPart.None
    ensures r.legSelection == s.legSelection
  {
    s.(trainingMode := TrainingMode.None, xrayType := XrayType.None, bodyPart := BodyPart.None,
       taskType := TaskType.None)
  }

  /** The confirmation button saves first and validates second, so a record
      that fails validation is still stored; only the menu is reset. */
  function OnConfirmationButtonPressed(s: Selections, store: Option<SDL.ScenarioData>): (r: ConfirmResult)
    ensures store.None? ==> r == ConfirmResult(s, store)
    ensures store.Some? ==> r.store == Some(s)
    ensures store.Some? && CheckScenarioData(s) ==> r.sel == s
    ensures store.Some? && !CheckScenarioData(s) ==> r.sel == ResetSelections(s)
  {
    match store
    case None => ConfirmResult(s, store)
    case Some(d) =>
      var saved := SDL.SaveScenarioData(d, s.trainingMode, s.taskType, s.xrayType, s.bodyPart, s.legSelection);
      if !CheckScenarioData(s) then ConfirmResult(ResetSelections(s), Some(saved))
      else ConfirmResult(s, Some(saved))
  }

  /** `RandomiseTypeAndPart`, with `Random.Range`'s results as the in-range picks. */
  function RandomiseTypeAndPart(s: Selections, xrayPick: int, bodyPick: int): (r: Selections)
    requires 0 <= xrayPick < |RandomXrayTypes| && 0 <= bodyPick < |RandomBodyParts|
    ensures r.xrayType != XrayType.None
    ensures r.bodyPart != BodyPart.None && r.bodyPart != BodyPart.Default
    ensures r.(xrayType := s.xrayType, bodyPart := s.bodyPart) == s
  {
    s.(xrayType := RandomXrayTypes[xrayPick], bodyPart := RandomBodyParts[bodyPick])
  }

  /** `AssessmentModeSetup`: a known task id fixes the task and randomises the
      x-ray type and body part; any id ends in assessment mode and shows the
      confirmation screen, whatever the leg selection is. */
  function AssessmentModeSetup(s: Selections, taskID: int, xrayPick: int, bodyPick: int): (r: MenuStep)
    requires 0 <= xrayPick < |RandomXrayTypes| && 0 <= bodyPick < |RandomBodyParts|
    ensures r.sel.trainingMode == TrainingMode.AssessmentMode
    ensures r.confirmationShown
    ensures 0 <= taskID < 3 ==> TaskOrdinal(r.sel.taskType) == taskID + 1
    ensures 0 <= taskID < 3 ==> r.sel.xrayType in RandomXrayTypes && r.sel.bodyPart in RandomBodyParts
    ensures !(0 <= taskID < 3) ==>
              r.sel.taskType == s.taskType && r.sel.xrayType == s.xrayType && r.sel.bodyPart == s.bodyPart
    ensures r.sel.legSelection == s.legSelection
  {
    var picked :=
      match taskID
      case 0 => RandomiseTypeAndPart(s.(taskType := TaskType.Emitter), xrayPick, bodyPick)
      case 1 => RandomiseTypeAndPart(s.(taskType := TaskType.Plate), xrayPick, bodyPick)
      case 2 => RandomiseTypeAndPart(s.(taskType := TaskType.Both), xrayPick, bodyPick)
      case _ => s;
    MenuStep(picked.(trainingMode := TrainingMode.AssessmentMode), true)
  }

  /** The randomisation lists hold every x-ray type and every real body part,
      and nothing else: `None` and `Default` are never drawn. */
  lemma RandomisationListsCoverChoices()
    ensures forall x: XrayType :: x in RandomXrayTypes <==> x != XrayType.None
    ensures forall b: BodyPart :: b in RandomBodyParts <==> b != BodyPart.None && b != BodyPart.Default
  {
  }

  /** `ContinueCheck` holds exactly when no field has ordinal 0. */
  lemma ContinueCheckIffAllChosen(s: Selections)
    ensures ContinueCheck(s) <==> forall k :: 0 <= k < 5 ==> Ordinals(s)[k] > 0
  {
    assert ContinueCheck(s) <==> Ordinals(s)[0] > 0 && Ordinals(s)[1] > 0 && Ordinals(s)[2] > 0
                                 && Ordinals(s)[3] > 0 && Ordinals(s)[4] > 0;
  }

  /** `CheckScenarioData` holds exactly when mode, x-ray type and body part are
      chosen; the task and the leg never influence it. */
  lemma CheckScenarioDataIgnoresTaskAndLeg(s: Selections, t: TaskType, l: LegSelect)
    ensures CheckScenarioData(s) <==> Ordinals(s)[0] > 0 && Ordinals(s)[2] > 0 && Ordinals(s)[3] > 0
    ensures CheckScenarioData(s.(taskType := t, legSelection := l)) == CheckScenarioData(s)
  {
  }

  /** The validator is strictly weaker than the completeness gate. */
  lemma ValidatorWeakerThanContinueCheck(s: Selections)
    ensures ContinueCheck(s) ==> CheckScenarioData(s)
    ensures var w := SDL.ScenarioData(TrainingMode.GuidedMode, TaskType.None, XrayType.LM, BodyPart.Head, LegSelect.None);
            CheckScenarioData(w) && !ContinueCheck(w)
  {
  }

  /** A confirmation reached through the completeness gate never resets the menu. */
  lemma CompleteSelectionsSurviveConfirmation(s: Selections, d: SDL.ScenarioData)
    requires ContinueCheck(s)
    ensures OnConfirmationButtonPressed(s, Some(d)) == ConfirmResult(s, Some(s))
  {
  }

  /** A confirmation with an invalid record stores that invalid record. */
  lemma InvalidRecordIsStillSaved(s: Selections, d: SDL.ScenarioData)
    requires !CheckScenarioData(s)
    ensures var r := OnConfirmationButtonPressed(s, Some(d));
            r.store == Some(s) && !CheckScenarioData(r.store.value) && r.sel.trainingMode == TrainingMode.None
  {
  }

  /** Because `ResetSelections` keeps the leg, a user who re-picks mode, task,
      x-ray type and body part after a reset reaches the confirmation screen
      without choosing a leg again. */
  lemma StaleLegSurvivesReset(s: Selections, task: int, xray: int, body: int)
    requires s.legSelection != LegSelect.None
    requires 0 <= task < 3 && 0 <= xray < 4 && 0 <= body < 6
    ensures var r := ResetSelections(s);
            var g := OnTaskSelection(OnGuidedModeButtonPressed(r), task);
            var x := OnXrayTypeSelected(g, xray);
            var b := OnBodyPartSelected(x.sel, body);
            b.confirmationShown && b.sel.legSelection == s.legSelection
  {
  }

  /** Guided mode reaches the confirmation screen through the handlers exactly
      when every dropdown received an in-range index. */
  lemma GuidedFlowReachesConfirmation(task: int, xray: int, body: int, leg: int)
    ensures var g := OnTaskSelection(OnGuidedModeButtonPressed(Initial), task);
            var x := OnXrayTypeSelected(g, xray);
            var b := OnBodyPartSelected(x.sel, body);
            var l := OnLegSelection(b.sel, leg);
            l.confirmationShown <==> 0 <= task < 3 && 0 <= xray < 4 && 0 <= body < 6 && 0 <= leg < 4
  {
  }

  /** A known assessment task always yields a record the validator accepts. */
  lemma AssessmentSetupIsValid(s: Selections, taskID: int, xrayPick: int, bodyPick: int)
    requires 0 <= xrayPick < |RandomXrayTypes| && 0 <= bodyPick < |RandomBodyParts|
    requires 0 <= taskID < 3
    ensures CheckScenarioData(AssessmentModeSetup(s, taskID, xrayPick, bodyPick).sel)
  {
  }
}

=== FILE: scenario_data_loader.dfy ===
/** The persistent scenario record and its loader
    (Assets/Scripts/ScenarioDataLoader.cs and its copy
    Assets/eqvr_Scripts/ScenarioDataLoader.cs; the two agree on `Start`,
    `Awake`, `SaveScenarioData` and `ResetScenarioData`, and the scene-load
    methods `ResetScenario` and `ReturnToMainMenu` exist only in the second). The `Instance` singleton is kept as the identity of the
    loader object that owns it; scene loading is an output, not an effect. */
module ScenarioDataLoader {

  import opened Wrappers
  import opened SelectionEnums

  /** The five-field struct the menu writes and the scenes read. */
  datatype ScenarioData = ScenarioData(
    trainingMode: TrainingMode,
    taskType: TaskType,
    xrayType: XrayType,
    bodyPart: BodyPart,
    legSelection: LegSelect)

  /** The struct's zero value: every enum field at ordinal 0. */
  const Cleared := ScenarioData(TrainingMode.None, TaskType.None, XrayType.None, BodyPart.None, LegSelect.None)

  /** Identity of a loader object in the scene. */
  type LoaderId = nat

  /** Outcome of `Start`: the new `Instance`, and whether this object
      destroyed itself as a duplicate. */
  datatype StartResult = StartResult(instance: Option<LoaderId>, destroyed: bool)

  /** A requested scene load, by build index. */
  datatype SceneLoad = SceneLoad(data: ScenarioData, sceneIndex: nat)

  /** The active scene's name that triggers a reset on `Awake`. */
  const MainMenuScene: string := "MainMenu"

  function SaveScenarioData(d: ScenarioData, trainingMode: TrainingMode, taskType: TaskType,
                            xrayType: XrayType, bodyPart: BodyPart, legSelection: LegSelect): (r: ScenarioData)
    ensures r.trainingMode == trainingMode && r.taskType == taskType && r.xrayType == xrayType
    ensures r.bodyPart == bodyPart && r.legSelection == legSelection
  {
    d.(trainingMode := trainingMode, taskType := taskType, xrayType := xrayType,
       bodyPart := bodyPart, legSelection := legSelection)
  }

  function ResetScenarioData(d: ScenarioData): (r: ScenarioData)
    ensures r.trainingMode == TrainingMode.None && r.taskType == TaskType.None
    ensures r.xrayType == XrayType.None && r.bodyPart == BodyPart.None
    ensures r.legSelection == LegSelect.None
  {
    d.(trainingMode := TrainingMode.None, taskType := TaskType.None, xrayType := XrayType.None,
       bodyPart := BodyPart.None, legSelection := LegSelect.None)
  }

  /** `Start`: the first loader to start becomes `Instance`; any later one
      destroys itself and leaves `Instance` alone. */
  function Start(instance: Option<LoaderId>, self: LoaderId): (r: StartResult)
    ensures instance.None? ==> r.instance == Some(self) && !r.destroyed
    ensures instance.Some? ==> r.instance == instance && r.destroyed
  {
    if instance.None? then StartResult(Some(self), false)
    else StartResult(instance, true)
  }

  /** `Awake`: the data is reset exactly when the active scene is the main menu. */
  function Awake(d: ScenarioData, activeScene: string): (r: ScenarioData)
    ensures activeScene == MainMenuScene ==> r == Cleared
    ensures activeScene != MainMenuScene ==> r == d
  {
    if activeScene == MainMenuScene then ResetScenarioData(d) else d
  }

  /** `ResetScenario` reloads the training scene (build index 1) and keeps the data. */
  function ResetScenario(d: ScenarioData): (r: SceneLoad)
    ensures r.data == d && r.sceneIndex == 1
  {
    SceneLoad(d, 1)
  }

  /** `ReturnToMainMenu` loads the menu scene (build index 0) and keeps the data. */
  function ReturnToMainMenu(d: ScenarioData): (r: SceneLoad)
    ensures r.data == d && r.sceneIndex == 0
  {
    SceneLoad(d, 0)
  }

  /** A save overwrites every field: the prior record is irrelevant, so a save
      after a reset equals the save, and saving twice equals saving once. */
  lemma SaveOverwritesEverything(d: ScenarioData, e: ScenarioData, tm: TrainingMode, tt: TaskType,
                                 xt: XrayType, bp: BodyPart, ls: LegSelect)
    ensures SaveScenarioData(d, tm, tt, xt, bp, ls) == SaveScenarioData(e, tm, tt, xt, bp, ls)
    ensures SaveScenarioData(ResetScenarioData(d), tm, tt, xt, bp, ls) == SaveScenarioData(d, tm, tt, xt, bp, ls)
    ensures var s := SaveScenarioData(d, tm, tt, xt, bp, ls);
            SaveScenarioData(s, tm, tt, xt, bp, ls) == s
    ensures SaveScenarioData(d, tm, tt, xt, bp, ls) == ScenarioData(tm, tt, xt, bp, ls)
  {
  }

  /** Saving a record's own fields back into it changes nothing, and a reset
      always yields the cleared record whatever came before. */
  lemma SaveAndResetFixedPoints(d: ScenarioData)
    ensures SaveScenarioData(d, d.trainingMode, d.taskType, d.xrayType, d.bodyPart, d.legSelection) == d
    ensures ResetScenarioData(d) == Cleared
    ensures ResetScenarioData(ResetScenarioData(d)) == ResetScenarioData(d)
  {
  }

  /** Starting loaders in order: if no instance existed, the first one to start
      is `Instance` at the end, and every later one destroys itself. */
  function StartAll(instance: Option<LoaderId>, selves: seq<LoaderId>): (r: Option<LoaderId>)
    decreases |selves|
  {
    if |selves| == 0 then instance
    else StartAll(Start(instance, selves[0]).instance, selves[1..])
  }

  lemma {:induction false} FirstStarterWins(instance: Option<LoaderId>, selves: seq<LoaderId>)
    ensures instance.Some? ==> StartAll(instance, selves) == instance
    ensures instance.None? && |selves| > 0 ==> StartAll(instance, selves) == Some(selves[0])
    ensures instance.None? && |selves| == 0 ==> StartAll(instance, selves).None?
    decreases |selves|
  {
    if |selves| > 0 {
      FirstStarterWins(Start(instance, selves[0]).instance, selves[1..]);
    }
  }
}

=== FILE: selection_enums.dfy ===
/** The five selection enums shared by the menu, the scenario record and the
    scene set-up (Assets/Scripts/NewMainMenuFunctions.cs, lines 372-417).
    C# numbers enum members from 0 in declaration order; the `Ordinal`
    functions give that number, so `None` is always ordinal 0. */
module SelectionEnums {

  datatype LegSelect = None | FrontLeft | FrontRight | HindLeft | HindRight

  datatype TaskType = None | Emitter | Plate | Both

  datatype TrainingMode = None | GuidedMode | AssessmentMode

  datatype XrayType = None | DP_DPI | LM | DLPMO | DMPLO

  datatype BodyPart = None | Fetlock | Foot | Carpus | Tarsus | Stifle | Head | Default

  function LegOrdinal(l: LegSelect): nat
  {
    match l
    case None => 0
    case FrontLeft => 1
    case FrontRight => 2
    case HindLeft => 3
    case HindRight => 4
  }

  function TaskOrdinal(t: TaskType): nat
  {
    match t
    case None => 0
    case Emitter => 1
    case Plate => 2
    case Both => 3
  }

  function ModeOrdinal(m: TrainingMode): nat
  {
    match m
    case None => 0
    case GuidedMode => 1
    case AssessmentMode => 2
  }

  function XrayOrdinal(x: XrayType): nat
  {
    match x
    case None => 0
    case DP_DPI => 1
    case LM => 2
    case DLPMO => 3
    case DMPLO => 4
  }

  function BodyPartOrdinal(b: BodyPart): nat
  {
    match b
    case None => 0
    case Fetlock => 1
    case Foot => 2
    case Carpus => 3
    case Tarsus => 4
    case Stifle => 5
    case Head => 6
    case Default => 7
  }

  /** Distinct enum members have distinct ordinals, and `None` is the one
      member with ordinal 0. */
  lemma OrdinalsIdentifyMembers()
    ensures forall a: LegSelect, b: LegSelect :: LegOrdinal(a) == LegOrdinal(b) ==> a == b
    ensures forall a: TaskType, b: TaskType :: TaskOrdinal(a) == TaskOrdinal(b) ==> a == b
    ensures forall a: TrainingMode, b: TrainingMode :: ModeOrdinal(a) == ModeOrdinal(b) ==> a == b
    ensures forall a: XrayType, b: XrayType :: XrayOrdinal(a) == XrayOrdinal(b) ==> a == b
    ensures forall a: BodyPart, b: BodyPart :: BodyPartOrdinal(a) == BodyPartOrdinal(b) ==> a == b
    ensures forall l: LegSelect :: LegOrdinal(l) == 0 <==> l == LegSelect.None
    ensures forall t: TaskType :: TaskOrdinal(t) == 0 <==> t == TaskType.None
    ensures forall m: TrainingMode :: ModeOrdinal(m) == 0 <==> m == TrainingMode.None
    ensures forall x: XrayType :: XrayOrdinal(x) == 0 <==> x == XrayType.None
    ensures forall b: BodyPart :: BodyPartOrdinal(b) == 0 <==> b == BodyPart.None
  {
  }
}

=== FILE: wrappers.dfy ===
/** The optional-value datatype used for C# null references and for
    lookups that may find nothing. */
module Wrappers {

  datatype Option<+T> = None | Some(value: T)
}
